=== FILE: README.md ===
# Maritime routing core, modelled in Dafny

This project models the deterministic core of a maritime weather and routing
dashboard written in Python. The core has four parts:

- **Coordinate text handling** (`utils/__init__.py`):
  - `parse_coordinates` reads `lat,lon` text into a range-checked coordinate, or raises one `ValueError` kind.
  - `parse_waypoints` reads one coordinate per non-blank line.
  - `calculate_bounding_box` builds the padded box around a route.
  - The file-name rule of `save_route_to_file` forces a `.json` suffix.
- **Port graph and cost-annotated searches** (`routing/graph.py`, `routing/pathfinding.py`):
  - `build_graph` gives one node per distinct port name and a full mesh of edges carrying great-circle distances.
  - `fastest_path` searches the graph itself. `safest_path` and `recommended_path` search a copy of the graph annotated with `risk_cost` or `combo_cost`.
- **The route network of `MaritimePathFinder`** (`routing/pathfinder.py`):
  - `calculate_risk` scores a point by the risk zones around it.
  - `create_route_network` clears the path finder's graph and refills it with one node per point and one edge per pair of points. Each edge carries fastest, safest and recommended weights.
  - `find_path` searches that network from the start point to the end point and reports the distance and average risk.
- **Weather rules** (`weather/simulator.py`):
  - the climate region of a latitude;
  - the per-region pattern table;
  - the conditions label.

The model covers the five source files listed above.

Modelling choices:

- Coordinates, distances, risks and weights are `real`.
- The great-circle distance (`geodesic(...).kilometers`, `haversine_km`) is a function parameter `Distance`. The searches and risk bounds require it to be non-negative. `build_graph` requires it to be symmetric, as the haversine formula is.
- Python's `float()` on a string is a parameter `toFloat: string -> Option<real>`.
- `nx.shortest_path` is a parameter `ShortestPathOracle`. Its contract, `SoundOracle`, says four things:
  - a found path is a path of the graph from source to target;
  - if the weights are non-negative, no path of the graph is cheaper;
  - "no path" is answered only when no path exists, and "node not found" exactly when an end node is missing;
  - the negative-weight `ValueError` of networkx's Dijkstra ("Contradictory paths found") is answered only when some weight under the key is negative. It is the outcome `NegativeWeights`.
- `nx.Graph` is the class `NetworkGraph.Graph<N>`. It has two dictionary fields:
  - `nodes`: node to attribute dictionary;
  - `edges`: the unordered pair `{u, v}` to attribute dictionary.

  `add_node`, `add_edge`, `clear`, `copy` and the in-place update of an edge's data dictionary are methods on those fields.
- `MaritimePathFinder` is a class. Its graph is a field that `create_route_network` and `find_path` modify.

## Model

| member | source | states |
|---|---|---|
| Text.IsSpace | utils/__init__.py:57 | the white space `strip()` removes includes the blank, tab, line feed and carriage return, and never a comma, digit, sign or decimal point, so stripping never eats into a field or the separator |
| Text.Strip | utils/__init__.py:24 | `strip()` is never longer than the text, and what it leaves neither starts nor ends with white space |
| Text.StripShape | utils/__init__.py:24 | `strip()` leaves a middle slice of the text: only white space is removed on either side, and the result neither starts nor ends with white space |
| Text.StripIgnoresPadding | utils/__init__.py:24 | white space added around a field does not change what `strip()` leaves |
| Text.Split | utils/__init__.py:24 | `split(sep)` yields one more piece than there are separators, and no piece contains the separator |
| Text.JoinSplit | utils/__init__.py:24 | splitting loses nothing: joining the pieces with the separator gives back the text |
| Text.SplitJoin | utils/__init__.py:56 | pieces without the separator survive a join followed by a split |
| Utils.ParseCoordinates | utils/__init__.py:9-39 | it yields a coordinate only from text with exactly one comma, and the coordinate is in range with inclusive bounds. Any other comma count fails as "not exactly one comma". Every failure is the single `InvalidCoordinateFormat` error naming the input |
| Utils.ConvertParts | utils/__init__.py:25-36 | a part count other than two fails as "not exactly one comma". Otherwise it succeeds iff both parts convert and the pair is in range, and then gives that pair. A "not a number" failure names one of the parts, and the longitude is checked only once the latitude is in range |
| Utils.ReadCoordinate | utils/__init__.py:24-36 | a comma count other than one fails as "not exactly one comma". With one comma it succeeds iff both stripped fields convert and are in range, and then gives those two numbers |
| Utils.ParseTwoFields | utils/__init__.py:24-36 | for `a,b` it succeeds iff both stripped fields convert and -90 ≤ lat ≤ 90 and -180 ≤ lon ≤ 180. The result is then those two numbers |
| Utils.SameStrippedFields | utils/__init__.py:24-28 | two texts whose fields strip to the same strings parse to the same result |
| Utils.PaddingIgnored | utils/__init__.py:24 | `" a , b "` parses exactly as `"a,b"` |
| Utils.NonBlank | utils/__init__.py:56-58 | the stripped non-blank lines: never more than the lines, and none of them empty |
| Utils.ParseLines | utils/__init__.py:55-61 | when the line loop succeeds it returns one coordinate per stripped non-blank line, each in range |
| Utils.ParseLinesMeaning | utils/__init__.py:55-61 | the line loop succeeds iff every stripped non-blank line parses. It then returns one coordinate per such line, in order, each equal to `parse_coordinates` of that line. On failure it returns the error of the first bad line |
| Utils.ParseLinesFailureSticks | utils/__init__.py:59 | once a line has failed, later lines do not change the result |
| Utils.ParseWaypoints | utils/__init__.py:42-61 | empty or white-space-only input gives `[]`. Otherwise the loop's result equals the line-by-line parse of the stripped text's lines |
| Utils.MaxOf | utils/__init__.py:87-89 | `max` is an upper bound of the list that occurs in it |
| Utils.MinOf | utils/__init__.py:88-90 | `min` is a lower bound of the list that occurs in it |
| Utils.CalculateBoundingBox | utils/__init__.py:64-91 | no points give four zero bounds. Otherwise each bound is an extreme latitude or longitude of some point, moved out by the padding, so with padding ≥ 0 every point lies inside the box |
| Utils.RouteFileName | utils/__init__.py:204-211 | the name always ends in `.json`. A name already ending in `.json` is kept, any other name gets `.json` appended, and no name gives `route_<timestamp>.json` |
| Utils.RouteFileNameIdempotent | utils/__init__.py:210-211 | normalising an already normalised name changes nothing |
| NetworkGraph.Graph.constructor | routing/graph.py:19 | `nx.Graph()` is empty |
| NetworkGraph.Graph.AddNode | routing/graph.py:21 | `add_node` creates the node or merges the attributes into its dictionary; edges unchanged |
| NetworkGraph.Graph.AddEdge | routing/graph.py:26 | `add_edge` adds missing end points and creates or merges the edge's dictionary, keeping every edge within the node set |
| NetworkGraph.Graph.SetEdgeAttr | routing/pathfinding.py:17 | writing one key of one edge's data dictionary changes only that entry |
| NetworkGraph.Graph.Clear | routing/pathfinder.py:32 | `clear()` leaves no nodes and no edges |
| NetworkGraph.Graph.Copy | routing/pathfinding.py:13 | `copy()` is a fresh graph with the same nodes and edge data, so the original is not touched by later writes to the copy |
| NetworkGraph.MeshBeforeNext | routing/graph.py:24-26 | each inner-loop step adds exactly the pair (i, j) to the pairs done so far |
| NetworkGraph.MeshEdgesComplete | routing/graph.py:24-26 | every two different positions of the name list are joined by an edge |
| NetworkGraph.MeshEdgeEnds | routing/graph.py:24-26 | every edge of the mesh joins the names at two positions k < l |
| NetworkGraph.SelfLoopIffRepeated | routing/graph.py:24-26 | the mesh has the self-loop {x} iff x occurs twice in the name list |
| NetworkGraph.MeshEdgesCount | routing/graph.py:23-26 | with n distinct names the mesh has n(n-1)/2 edges |
| NetworkGraph.MeshEdgesSimple | routing/graph.py:23-26 | with distinct names every edge joins two different nodes |
| NetworkGraph.PathCostNonNegative | routing/pathfinder.py:107-109 | the sum of the edge weights along a path, each read with default 1, is never negative when no weight is |
| NetworkGraph.PathCostBounds | routing/pathfinder.py:107-115 | if every edge weight lies in [lo, hi], a path of h hops costs between h·lo and h·hi |
| NetworkGraph.SameWeights | routing/pathfinder.py:57 | two weights equal on every edge give every path the same cost |
| PortGraph.PortCoordsKeys | routing/graph.py:20-23 | the nodes added by the port loop are exactly the port names |
| PortGraph.PortCoordsLastWins | routing/graph.py:20-21 | a node carries the coordinate of the last port with its name |
| PortGraph.BuildGraph | routing/graph.py:18-27 | `build_graph` returns a new graph: nodes are exactly the port names with their last coordinates; the edges are exactly the pairs of names at positions i < j; each edge's only attribute is the distance of its endpoints' stored coordinates |
| PortGraph.AddPortNodes | routing/graph.py:20-21 | the first loop leaves one node per distinct name, the last coordinate winning, and no edges |
| PortGraph.AddPortNode | routing/graph.py:21 | one `add_node(port.name, coord=port.coord)` extends the name-to-last-coordinate nodes by that port and leaves the edges as they were |
| PortGraph.AddMeshEdges | routing/graph.py:23-26 | the nested loops join every pair i < j and leave the nodes as they were |
| PortGraph.AddMeshEdge | routing/graph.py:26 | one `add_edge` with the distance read back from the two nodes' stored coordinates |
| PortGraph.EdgeDistanceByEnds | routing/graph.py:26 | for any edge {a, b} of the built graph, its distance is the distance between a's and b's coordinates |
| Pathfinding.Annotated | routing/pathfinding.py:14-17 | the annotated edge data has exactly the original edges |
| Pathfinding.AnnotateEdges | routing/pathfinding.py:14-17 | the loop over `edges(data=True)` writes `key := cost(edge)` into every edge's data in place and changes nothing else |
| Pathfinding.AnnotatedSamePaths | routing/pathfinding.py:13-18 | annotation adds and removes no path |
| Pathfinding.FastestPath | routing/pathfinding.py:8-9 | `fastest_path` returns the oracle's answer under the weight `distance`: a path, "no path", "node not found", or the negative-weight error when some distance is negative |
| Pathfinding.SafestPath | routing/pathfinding.py:12-18 | the answer is a shortest-path answer on the copy annotated with `risk_cost = d·(1 + risk)`, where d is the distance (default 1.0). A found path is a path of the caller's graph, which the method does not modify |
| Pathfinding.RecommendedPath | routing/pathfinding.py:21-27 | as `SafestPath`, with `combo_cost = alpha·d + (1 - alpha)·d·(1 + risk)` and alpha defaulting to 0.5 |
| Pathfinding.EdgeDistance | routing/pathfinding.py:15 | `data.get("distance", 1.0)` is the same reading of an edge that the search makes for the weight `distance` |
| Pathfinding.RiskCost | routing/pathfinding.py:17 | the safest cost is never below a non-negative distance when the risk is non-negative, and equals the distance when the risk is 0 |
| Pathfinding.ComboCost | routing/pathfinding.py:26 | the recommended cost adds to the distance the share 1 - alpha of the surcharge that the safest cost puts on it |
| Pathfinding.NegativeRiskMayRaise | routing/pathfinding.py:12-18 | a `risk_func` value below -1 on an edge of positive length makes `risk_cost` negative, so the search of `safest_path` may end in the negative-weight error instead of a path |
| Pathfinding.ComboCostEnds | routing/pathfinding.py:26 | alpha = 1 gives the distance; alpha = 0 gives `risk_cost` |
| Pathfinding.ComboCostBetween | routing/pathfinding.py:17-26 | for d, risk ≥ 0 and alpha in [0, 1]: d ≤ combo_cost ≤ risk_cost |
| Pathfinding.PathCostsOrdered | routing/pathfinding.py:8-27 | along any path: distance ≤ combo cost ≤ risk cost |
| Pathfinding.FastestIsShortest | routing/pathfinding.py:8-18 | for any answers of the `distance` search and of the `risk_cost` search on the annotated copy (such as the results of `FastestPath` and `SafestPath`), the fastest route is no longer than the safest route, whose length is at most its risk cost |
| Pathfinder.MaxZoneRisk | routing/pathfinder.py:21-27 | the accumulator of the zone loop is never negative |
| Pathfinder.PointRisk | routing/pathfinder.py:19-28 | a point's risk lies in [0, 1] |
| Pathfinder.MaxZoneRiskIsMax | routing/pathfinder.py:22-27 | overlapping zones combine by maximum: the result is at least every covering zone's `level·(1 - (d/r)²)`, and is 0 or one of them |
| Pathfinder.OutsideEveryZone | routing/pathfinder.py:24 | only a distance strictly below the radius counts, so a point outside every zone has risk 0 |
| Pathfinder.ZoneRisk | routing/pathfinder.py:26 | a zone gives its full level at its centre and nothing on its rim |
| Pathfinder.ZoneRiskBounds | routing/pathfinder.py:26 | inside its radius a zone gives between 0 and its level, and more than 0 when its level is positive |
| Pathfinder.DefaultRiskAtMost | routing/pathfinder.py:13-17 | with the three built-in zones no risk exceeds 0.8, so the cap at 1 never acts |
| Pathfinder.PointRisks | routing/pathfinder.py:35-36 | one risk per point, each in [0, 1] |
| Pathfinder.RouteNodeAttrs | routing/pathfinder.py:37 | node k has exactly the attributes `pos`, `risk`, `lat` and `lon`: its risk, the latitude and longitude of points[k], and the position with longitude first |
| Pathfinder.RouteNetworkShape | routing/pathfinder.py:35-60 | the route network's nodes are exactly 0..n-1. Any two of them are joined, there are n(n-1)/2 edges, and there is no self-loop |
| Pathfinder.RouteEdgeWeights | routing/pathfinder.py:49-59 | every edge's risk lies in [0, 1], and fastest = distance ≤ recommended ≤ safest |
| Pathfinder.WeightsOrdered | routing/pathfinder.py:52-60 | the attributes of an edge of length d and mean risk `risk` hold `distance`, `risk`, `fastest`, `safest` and `recommended`, and, for d ≥ 0 and risk in [0, 1], a non-negative distance, a risk in [0, 1] and fastest = distance ≤ recommended ≤ safest |
| Pathfinder.DirectPath | routing/pathfinder.py:40-60 | the direct edge from the first point to the last is a path of the network |
| Pathfinder.DirectPathCost | routing/pathfinder.py:46-57 | that edge's `fastest` weight is the distance from the first point to the last |
| Pathfinder.WeightKey | routing/pathfinder.py:91-102 | the search weight is the path type when it is one of the three known names, and `recommended` otherwise |
| Pathfinder.AllPoints | routing/pathfinder.py:81-85 | at least two points, starting with `start` and ending with `end` |
| Pathfinder.SearchFinds | routing/pathfinder.py:97-103 | on a network over at least two points whose weights are non-negative the search always finds a path, so neither the "no path" error nor the negative-weight error can be raised |
| Pathfinder.FoundRoute | routing/pathfinder.py:98-106 | a found path visits only nodes 0..n-1 and is the cheapest by its weight |
| Pathfinder.PathCoords | routing/pathfinder.py:106 | one coordinate per node of the path, the k-th being the point of the k-th node |
| Pathfinder.Hops | routing/pathfinder.py:115 | `max(1, len(node_path) - 1)`: at least 1 and at least the hop count, and equal to one of the two |
| Pathfinder.AverageRisk | routing/pathfinder.py:112-115 | the average risk times that divisor is the summed edge risk along the path |
| Pathfinder.RouteOf | routing/pathfinder.py:98-127 | a found node path becomes a route that describes it: its coordinates, summed distance, average risk, the waypoints and the path type. "No path" becomes the `No valid path` error, a missing node its error, and the negative-weight error propagates as `ContradictoryPaths` |
| Pathfinder.SoundSearchFinds | routing/pathfinder.py:98-103 | a sound search over a route network of at least two points finds a path from node 0 to node n-1 that visits only network nodes and is the cheapest by its weight |
| Pathfinder.RouteEnds | routing/pathfinder.py:106 | the reported path begins at the start point and ends at the end point |
| Pathfinder.AverageRiskBounds | routing/pathfinder.py:112-115 | the average risk of a route lies in [0, 1] |
| Pathfinder.PathAverageInUnit | routing/pathfinder.py:112-115 | the summed edge risk divided by max(1, hops) lies in [0, 1] when each edge risk does |
| Pathfinder.FastestNoLongerThanDirect | routing/pathfinder.py:46-110 | the fastest route is never longer than the direct distance from start to end |
| Pathfinder.RouteWeightsNonNegative | routing/pathfinder.py:54-59 | every weight a search may use is non-negative on a route network |
| Pathfinder.MaritimePathFinder.constructor | routing/pathfinder.py:7-17 | an empty graph and the three default risk zones |
| Pathfinder.MaritimePathFinder.CalculateRisk | routing/pathfinder.py:19-28 | the zone loop computes the capped maximum zone risk, in [0, 1] |
| Pathfinder.MaritimePathFinder.CreateRouteNetwork | routing/pathfinder.py:30-62 | the graph is cleared and refilled. Node i holds `pos = (lon, lat)`, `risk`, `lat` and `lon` of points[i]. Each pair i < j gets one edge whose `risk` is the mean of the two node risks, with `fastest = d`, `safest = d·(1 + 5·risk)` and `recommended = d·(1 + risk)`. The method returns the path finder's own graph |
| Pathfinder.MaritimePathFinder.AddRouteNodes | routing/pathfinder.py:35-37 | the node loop adds node i with its position and risk for every point |
| Pathfinder.MaritimePathFinder.AddRouteEdges | routing/pathfinder.py:40-60 | the nested loops join every pair i < j |
| Pathfinder.MaritimePathFinder.AddRouteRow | routing/pathfinder.py:41-60 | the inner loop joins point i to every later point |
| Pathfinder.MaritimePathFinder.AddRouteEdge | routing/pathfinder.py:46-60 | one `add_edge`, with the risk read back from the two nodes |
| Pathfinder.MaritimePathFinder.FindPath | routing/pathfinder.py:64-127 | it builds the route network over `[start] + waypoints + [end]`, with None waypoints read as []. The search runs from node 0 to node n-1 and always finds a path, so the result is never a "no valid path" error (nor a missing-node one). The result holds: the coordinates along the found node path; the summed edge distance; the summed edge risk divided by max(1, hops); the waypoints; and the path type. The path is the cheapest by the chosen weight |
| Weather.PatternsProper | weather/simulator.py:20-45 | the pattern table has exactly the three regions; every range has low < high and every probability lies in [0, 1] |
| Weather.RegionForCoords | weather/simulator.py:47-58 | tropical iff abs(lat) < 23.5; temperate iff 23.5 ≤ abs(lat) < 66.5; polar iff abs(lat) ≥ 66.5. A boundary goes to the band further from the equator, and the region is always a key of the pattern table, so the lookup at line 58 cannot fail |
| Weather.RegionIgnoresHemisphere | weather/simulator.py:47-54 | longitude is ignored and lat and -lat share a region |
| Weather.RegionMonotone | weather/simulator.py:49-54 | a latitude further from the equator never gives a band nearer to it |
| Weather.Conditions | weather/simulator.py:110-123 | one of six labels. `Stormy` iff storm. `Heavy Rain with Strong Winds` iff rain without storm and wind > 15, `Rainy` iff rain without storm and wind ≤ 15. `Windy` iff dry and wind > 10, `Breezy` iff dry and 5 < wind ≤ 10, `Clear` iff dry and wind ≤ 5 |
| Weather.ConditionsRecoverFlags | weather/simulator.py:110-123 | the label gives back the storm flag, and the rain flag when there is no storm |
| Weather.DryConditionsMonotone | weather/simulator.py:118-123 | in dry weather a stronger wind never gives a calmer label |

## Left out

- Floating point: every number is an exact `real`. Rounding, NaN and infinities are not modelled. This includes what `float()` accepts, which is the abstract `toFloat` parameter.
- The trigonometry of `haversine_km`, `geodesic` and the simulator's `_haversine` is not modelled. Distances are an abstract function parameter.
- The Dijkstra search inside `nx.shortest_path` is not modelled; only its answer contract is. Which of several equally cheap paths it returns is left open.
- The graph's internal representation and iteration order are not modelled. This leaves out the order of `edges(data=True)` and which end of an edge networkx reports as `u` and which as `v`. The `risk_func` of `safest_path` and `recommended_path` therefore receives the unordered edge `{u, v}` and its data. It is modelled as a total, pure function: a `risk_func` that raises, or one that mutates the live `data` dictionary it is given and so changes what later edges see, is not modelled.
- `build_graph` walks `ports` twice, so a one-shot iterator would give nodes but no edges. The input is modelled as a sequence.
- `create_route_network` reads `pos` of both nodes (lines 42-43) but never uses it. Those reads are not modelled.
- Pathfinder.MaritimePathFinder.FindPath, Pathfinder.MaritimePathFinder.CalculateRisk and Pathfinder.MaritimePathFinder.CreateRouteNetwork: `geodesic` raises `ValueError` for a latitude outside [-90, 90] or a non-finite coordinate (routing/pathfinder.py:23, 46). The distance parameter is total, so that error path is not modelled and `FindPath` promises a route for every input. The web interface reaches `find_path` from two branches. The manual branch passes only results of `parse_coordinates`, which are always in range (app.py:309-311). The predefined-route branch passes the coordinates of `get_predefined_route` (app.py:289-296), which is not part of this model, so those coordinates are not shown to be in range.
- NetworkGraph.PathCost: a missing attribute weighs 1, which is networkx's default weight. `find_path` indexes `distance` and `risk` directly and would raise `KeyError` on a missing one. Every route-network edge carries both, so the two agree wherever the model uses them.
- The clock of `save_route_to_file` becomes a timestamp parameter. The directory creation, JSON writing and `load_route_from_file` are file I/O and are left out.
- `create_folium_map` and `format_weather_summary` are map rendering and text formatting and are left out.
- `app.py` and `dashboard/app.py` are the web interface and are left out.
- Pathfinder.MaritimePathFinder.constructor: `risk_zones` is a plain list that callers may extend after construction (routing/pathfinder.py:8, 13). The model holds the zones in a `const` field fixed by the constructor, so zones added later are not modelled.
- `_generate_weather_params`, `get_weather_at_point` and `get_weather_along_route` of `weather/simulator.py`, and all of `weather/simulation.py`, are left out. They draw random numbers, use trigonometry and read the clock. `_haversine` is left out for the same reason.
- The constants `base_temperature`, `base_pressure`, `base_wind_speed` and `base_wave_height` are never read by the modelled code and are left out.

=== FILE: basics.dfy ===
/** Values shared by every part of the model. */
module Basics {

  /** Python's `None` or a value. */
  datatype Option<+T> = None | Some(value: T)

  /** A computation that either returns a value or raises an exception. */
  datatype Result<+R, +E> = Ok(value: R) | Err(error: E)

  /** A `(lat, lon)` tuple, in degrees. */
  datatype Coord = Coord(lat: real, lon: real)

  /**
   * A great-circle distance in kilometres between two points (`haversine_km`
   * or geopy's `geodesic(...).kilometers`), taken as a parameter: the
   * floating-point trigonometry behind it is not modelled.
   */
  type Distance = (Coord, Coord) -> real

  ghost predicate NonNegative(dist: Distance) {
    forall p, q :: dist(p, q) >= 0.0
  }

  ghost predicate Symmetric(dist: Distance) {
    forall p, q :: dist(p, q) == dist(q, p)
  }

  function Max(x: real, y: real): real { if x >= y then x else y }

  function Min(x: real, y: real): real { if x <= y then x else y }
}

=== FILE: network_graph.dfy ===
/**
 * The part of `networkx.Graph` that the routing code uses: an undirected
 * graph whose nodes and edges each carry a dictionary of attributes, the
 * `add_node`/`add_edge`/`clear`/`copy` operations, and `shortest_path` as an
 * oracle described only by what it returns.
 *
 * An undirected edge is keyed by the set of its end points: `{u, v}` for an
 * ordinary edge and `{u}` for a self-loop.
 */
module NetworkGraph {

  /** An attribute value: the code stores numbers and (x, y) tuples. */
  datatype Value = Num(x: real) | Tuple(first: real, second: real)

  type NodeAttrs = map<string, Value>

  /** Edges in the modelled code only ever carry numbers. */
  type EdgeAttrs = map<string, real>

  /** A snapshot of a graph's node and edge dictionaries. */
  datatype GraphData<N> = GraphData(nodes: map<N, NodeAttrs>, edges: map<set<N>, EdgeAttrs>)

  /** Every edge joins one or two nodes of the graph. */
  ghost predicate WellFormed<N>(g: GraphData<N>) {
    forall e :: e in g.edges ==> e <= g.nodes.Keys && 1 <= |e| <= 2
  }

  /** `nodes` after `add_node`-style insertion of `n` without attributes, if it is missing. */
  function Touch<N(==)>(nodes: map<N, NodeAttrs>, n: N): map<N, NodeAttrs> {
    if n in nodes then nodes else nodes[n := map[]]
  }

  class Graph<N(==)> {
    var nodes: map<N, NodeAttrs>
    var edges: map<set<N>, EdgeAttrs>

    function Data(): GraphData<N>
      reads this
    {
      GraphData(nodes, edges)
    }

    /** `nx.Graph()`. */
    constructor ()
      ensures nodes == map[] && edges == map[]
      ensures WellFormed(Data())
    {
      nodes, edges := map[], map[];
    }

    /** `add_node(n, **attrs)`: creates the node or updates its attribute dictionary. */
    method AddNode(n: N, attrs: NodeAttrs)
      requires WellFormed(Data())
      modifies this
      ensures nodes == old(nodes)[n := if n in old(nodes) then old(nodes)[n] + attrs else attrs]
      ensures edges == old(edges)
      ensures WellFormed(Data())
    {
      nodes := nodes[n := if n in nodes then nodes[n] + attrs else attrs];
    }

    /**
     * `add_edge(u, v, **attrs)`: adds missing end points without attributes,
     * then creates the edge or updates its attribute dictionary.
     */
    method AddEdge(u: N, v: N, attrs: EdgeAttrs)
      requires WellFormed(Data())
      modifies this
      ensures nodes == Touch(Touch(old(nodes), u), v)
      ensures edges == old(edges)[{u, v} := if {u, v} in old(edges) then old(edges)[{u, v}] + attrs else attrs]
      ensures WellFormed(Data())
    {
      nodes := Touch(Touch(nodes, u), v);
      var e := {u, v};
      edges := edges[e := if e in edges then edges[e] + attrs else attrs];
      assert |e| <= 2 by {
        if u == v { assert e == {u}; } else { assert e == {u} + {v}; }
      }
    }

    /**
     * `data[key] = x` on the attribute dictionary of an existing edge, as
     * handed out by `edges(data=True)`: the edge's own dictionary changes in place.
     */
    method SetEdgeAttr(e: set<N>, key: string, x: real)
      requires e in edges
      modifies this
      ensures nodes == old(nodes)
      ensures edges == old(edges)[e := old(edges)[e][key := x]]
    {
      edges := edges[e := edges[e][key := x]];
    }

    /** `clear()`: removes every node and edge. */
    method Clear()
      modifies this
      ensures nodes == map[] && edges == map[]
      ensures WellFormed(Data())
    {
      nodes, edges := map[], map[];
    }

    /** `copy()`: a new graph with copies of the same attribute dictionaries. */
    method Copy() returns (g: Graph<N>)
      ensures fresh(g)
      ensures g.Data() == Data()
    {
      g := new Graph();
      g.nodes, g.edges := nodes, edges;
    }
  }

  /** Consecutive nodes of `p` are joined by edges. */
  predicate Linked<N(==)>(edges: map<set<N>, EdgeAttrs>, p: seq<N>) {
    forall k :: 0 <= k < |p| - 1 ==> {p[k], p[k + 1]} in edges
  }

  /** Two unordered pairs are equal only when they have the same members in one order or the other. */
  lemma PairEq<N>(a: N, b: N, c: N, d: N)
    requires {a, b} == {c, d}
    ensures (a == c && b == d) || (a == d && b == c)
  {
    assert a in {c, d} && b in {c, d} && c in {a, b} && d in {a, b};
  }

  /** `p` is a node path from `s` to `t` along edges of `g`. */
  predicate IsPath<N(==)>(g: GraphData<N>, p: seq<N>, s: N, t: N) {
    && |p| >= 1 && p[0] == s && p[|p| - 1] == t
    && (forall k :: 0 <= k < |p| ==> p[k] in g.nodes)
    && Linked(g.edges, p)
  }

  /** The weight `shortest_path` reads from an edge: the attribute, or 1 when it is missing. */
  function Weight(attrs: EdgeAttrs, key: string): real {
    if key in attrs then attrs[key] else 1.0
  }

  /** The sum of the edge weights along a path. */
  function PathCost<N(==)>(edges: map<set<N>, EdgeAttrs>, p: seq<N>, key: string): real
    requires Linked(edges, p)
  {
    if |p| < 2 then 0.0
    else
      LinkedTail(edges, p);
      Weight(edges[{p[0], p[1]}], key) + PathCost(edges, p[1..], key)
  }

  predicate NonNegativeWeights<N(==)>(edges: map<set<N>, EdgeAttrs>, key: string) {
    forall e :: e in edges ==> Weight(edges[e], key) >= 0.0
  }

  /** What `nx.shortest_path(g, s, t, weight=key)` may answer. */
  datatype PathOutcome<N> = Found(path: seq<N>) | NoPath | NodeNotFound
    /** The `ValueError` Dijkstra raises when it finds a cheaper way to a node it has settled. */
    | NegativeWeights

  type ShortestPathOracle<!N> = (GraphData<N>, N, N, string) -> PathOutcome<N>

  /**
   * The contract of `nx.shortest_path`: a found path runs from `s` to `t`
   * along edges and, when no weight is negative, costs no more than any other
   * such path; `NetworkXNoPath` only when no path exists; `NodeNotFound`
   * exactly when an end point is missing, which is checked first; and the
   * negative-weight `ValueError` only when some weight is negative.
   */
  ghost predicate ShortestPathAnswer<N(!new)>(g: GraphData<N>, s: N, t: N, key: string, out: PathOutcome<N>) {
    && ((s !in g.nodes || t !in g.nodes) ==> out.NodeNotFound?)
    && match out
    case Found(p) =>
      && IsPath(g, p, s, t)
      && (NonNegativeWeights(g.edges, key) ==>
            forall q :: IsPath(g, q, s, t) ==> PathCost(g.edges, p, key) <= PathCost(g.edges, q, key))
    case NoPath => forall q :: !IsPath(g, q, s, t)
    case NodeNotFound => s !in g.nodes || t !in g.nodes
    case NegativeWeights => !NonNegativeWeights(g.edges, key)
  }

  /** One call of the search; the soundness of a search is stated call by call through it. */
  function Ask<N>(shortest: ShortestPathOracle<N>, g: GraphData<N>, s: N, t: N, key: string): PathOutcome<N> {
    shortest(g, s, t, key)
  }

  /** A search that answers every call by the contract of `nx.shortest_path`. */
  ghost predicate SoundOracle<N(!new)>(shortest: ShortestPathOracle<N>) {
    forall g, s, t, key :: ShortestPathAnswer(g, s, t, key, Ask(shortest, g, s, t, key))
  }

  /** The answer of a sound search to one call keeps the contract. */
  lemma SoundAnswer<N(!new)>(shortest: ShortestPathOracle<N>, g: GraphData<N>, s: N, t: N, key: string)
    requires SoundOracle(shortest)
    ensures ShortestPathAnswer(g, s, t, key, shortest(g, s, t, key))
  {
    assert ShortestPathAnswer(g, s, t, key, Ask(shortest, g, s, t, key));
  }

  // ---------------------------------------------------------------------
  // Full meshes: an edge for every pair of positions i < j of a name list.
  // ---------------------------------------------------------------------

  /** The edges a full-mesh loop over `names` has added before it reaches the pair (i, j). */
  function MeshBefore<N(==)>(names: seq<N>, i: nat, j: nat): set<set<N>> {
    set k, l | 0 <= k < l < |names| && (k < i || (k == i && l < j)) :: {names[k], names[l]}
  }

  /** `{names[k], names[l]}` for every pair of positions k < l. */
  function MeshEdges<N(==)>(names: seq<N>): set<set<N>> {
    set k, l | 0 <= k < l < |names| :: {names[k], names[l]}
  }

  predicate Distinct<N(==)>(names: seq<N>) {
    forall k, l :: 0 <= k < l < |names| ==> names[k] != names[l]
  }

  lemma MeshBeforeStart<N>(names: seq<N>)
    ensures MeshBefore(names, 0, 1) == {}
  {
  }

  /** The inner loop adds one pair. */
  lemma MeshBeforeNext<N>(names: seq<N>, i: nat, j: nat)
    requires i < j < |names|
    ensures MeshBefore(names, i, j + 1) == MeshBefore(names, i, j) + {{names[i], names[j]}}
  {
    var a, b := MeshBefore(names, i, j + 1), MeshBefore(names, i, j) + {{names[i], names[j]}};
    forall e | e in a ensures e in b {
      var k, l :| 0 <= k < l < |names| && (k < i || (k == i && l < j + 1)) && e == {names[k], names[l]};
    }
  }

  /** Finishing the inner loop of row i is starting row i + 1. */
  lemma MeshBeforeRow<N>(names: seq<N>, i: nat)
    requires i < |names|
    ensures MeshBefore(names, i, |names|) == MeshBefore(names, i + 1, i + 2)
  {
    var a, b := MeshBefore(names, i, |names|), MeshBefore(names, i + 1, i + 2);
    forall e | e in a ensures e in b {
      var k, l :| 0 <= k < l < |names| && (k < i || (k == i && l < |names|)) && e == {names[k], names[l]};
    }
    forall e | e in b ensures e in a {
      var k, l :| 0 <= k < l < |names| && (k < i + 1 || (k == i + 1 && l < i + 2)) && e == {names[k], names[l]};
    }
  }

  lemma MeshBeforeEnd<N>(names: seq<N>)
    ensures MeshBefore(names, |names|, |names| + 1) == MeshEdges(names)
  {
  }

  /** Every two different positions of the list are joined. */
  lemma MeshEdgesComplete<N>(names: seq<N>, k: nat, l: nat)
    requires k < |names| && l < |names| && k != l
    ensures {names[k], names[l]} in MeshEdges(names)
  {
    if l < k {
      assert {names[k], names[l]} == {names[l], names[k]};
    }
  }

  /** A mesh edge joins two listed names. */
  lemma MeshEdgeEnds<N>(names: seq<N>, e: set<N>)
    requires e in MeshEdges(names)
    ensures exists k, l :: 0 <= k < l < |names| && e == {names[k], names[l]}
    ensures forall x :: x in e ==> x in names
  {
  }

  /** A self-loop appears exactly for a name listed twice. */
  lemma SelfLoopIffRepeated<N>(names: seq<N>, x: N)
    ensures {x} in MeshEdges(names) <==> exists k, l :: 0 <= k < l < |names| && names[k] == x && names[l] == x
  {
    if {x} in MeshEdges(names) {
      var k, l :| 0 <= k < l < |names| && {x} == {names[k], names[l]};
      assert names[k] in {x} && names[l] in {x};
    }
    if exists k, l :: 0 <= k < l < |names| && names[k] == x && names[l] == x {
      var k, l :| 0 <= k < l < |names| && names[k] == x && names[l] == x;
      assert {names[k], names[l]} == {x};
    }
  }

  /** The edges joining `x` to each name of `p`. */
  function StarEdges<N(==)>(p: seq<N>, x: N): set<set<N>> {
    set k | 0 <= k < |p| :: {p[k], x}
  }

  /** Appending a name adds its star to the mesh. */
  lemma MeshEdgesSnoc<N>(names: seq<N>)
    requires |names| >= 1
    ensures var pre := names[..|names| - 1];
      MeshEdges(names) == MeshEdges(pre) + StarEdges(pre, names[|names| - 1])
  {
    var n := |names|;
    var pre, x := names[..n - 1], names[n - 1];
    forall e | e in MeshEdges(names) ensures e in MeshEdges(pre) + StarEdges(pre, x) {
      var k, l :| 0 <= k < l < n && e == {names[k], names[l]};
      if l < n - 1 {
        assert e == {pre[k], pre[l]};
      } else {
        assert e == {pre[k], x};
      }
    }
    forall e | e in MeshEdges(pre) + StarEdges(pre, x) ensures e in MeshEdges(names) {
      if e in MeshEdges(pre) {
        var k, l :| 0 <= k < l < n - 1 && e == {pre[k], pre[l]};
        assert e == {names[k], names[l]};
      } else {
        var k :| 0 <= k < n - 1 && e == {pre[k], x};
        assert e == {names[k], names[n - 1]};
      }
    }
  }

  /** A new name is joined to each of `|p|` distinct names by a distinct edge. */
  lemma {:induction false} StarEdgesCount<N>(p: seq<N>, x: N)
    requires Distinct(p) && x !in p
    ensures |StarEdges(p, x)| == |p|
  {
    if p != [] {
      var m := |p|;
      var pre := p[..m - 1];
      StarEdgesCount(pre, x);
      assert StarEdges(p, x) == StarEdges(pre, x) + {{p[m - 1], x}} by {
        forall e | e in StarEdges(p, x) ensures e in StarEdges(pre, x) + {{p[m - 1], x}} {
          var k :| 0 <= k < m && e == {p[k], x};
          if k < m - 1 { assert e == {pre[k], x}; }
        }
        forall e | e in StarEdges(pre, x) ensures e in StarEdges(p, x) {
          var k :| 0 <= k < m - 1 && e == {pre[k], x};
          assert e == {p[k], x};
        }
      }
    }
  }

  /** The mesh of a list and the star of a name not in it share no edge. */
  lemma MeshStarDisjoint<N>(pre: seq<N>, x: N)
    requires x !in pre
    ensures MeshEdges(pre) * StarEdges(pre, x) == {}
  {
    forall e | e in StarEdges(pre, x) ensures e !in MeshEdges(pre) {
      var k :| 0 <= k < |pre| && e == {pre[k], x};
      assert x in e;
      if e in MeshEdges(pre) {
        MeshEdgeEnds(pre, e);
      }
    }
  }

  /** Dropping the last name of a distinct list leaves a distinct list without that name. */
  lemma DistinctSnoc<N>(names: seq<N>)
    requires Distinct(names) && |names| >= 1
    ensures Distinct(names[..|names| - 1]) && names[|names| - 1] !in names[..|names| - 1]
  {
  }

  /** With distinct names the mesh has n(n-1)/2 edges. */
  lemma {:induction false} MeshEdgesCount<N>(names: seq<N>)
    requires Distinct(names)
    ensures 2 * |MeshEdges(names)| == |names| * (|names| - 1)
  {
    var n := |names|;
    if n == 0 {
      assert MeshEdges(names) == {};
    } else {
      var pre, x := names[..n - 1], names[n - 1];
      DistinctSnoc(names);
      MeshEdgesCount(pre);
      StarEdgesCount(pre, x);
      MeshEdgesSnoc(names);
      MeshStarDisjoint(pre, x);
      var a, b := MeshEdges(pre), StarEdges(pre, x);
      assert |a + b| == |a| + |b|;
      TriangleStep(n, |a|);
    }
  }

  lemma TriangleStep(n: int, a: int)
    requires n >= 1 && 2 * a == (n - 1) * (n - 2)
    ensures 2 * (a + (n - 1)) == n * (n - 1)
  {
  }

  /** With distinct names no mesh edge is a self-loop. */
  lemma MeshEdgesSimple<N>(names: seq<N>)
    requires Distinct(names)
    ensures forall e :: e in MeshEdges(names) ==> |e| == 2
  {
    forall e | e in MeshEdges(names) ensures |e| == 2 {
      var k, l :| 0 <= k < l < |names| && e == {names[k], names[l]};
      assert e == {names[k]} + {names[l]};
    }
  }

  /** Every weight along a path lies in [lo, hi], so the path's cost lies between hops * lo and hops * hi. */
  lemma {:induction false} PathCostBounds<N>(edges: map<set<N>, EdgeAttrs>, p: seq<N>, key: string, lo: real, hi: real)
    requires Linked(edges, p) && |p| >= 1
    requires forall e :: e in edges ==> lo <= Weight(edges[e], key) <= hi
    ensures (|p| - 1) as real * lo <= PathCost(edges, p, key) <= (|p| - 1) as real * hi
  {
    if |p| >= 2 {
      LinkedTail(edges, p);
      PathCostBounds(edges, p[1..], key, lo, hi);
      assert {p[0], p[1]} in edges;
      var w, rest := Weight(edges[{p[0], p[1]}], key), PathCost(edges, p[1..], key);
      assert PathCost(edges, p, key) == w + rest;
      BoundStep((|p| - 2) as real, lo, hi, w, rest);
      assert (|p| - 1) as real == (|p| - 2) as real + 1.0;
    }
  }

  /** One more weight in [lo, hi] added to a sum of h such weights. */
  lemma BoundStep(h: real, lo: real, hi: real, w: real, rest: real)
    requires h * lo <= rest <= h * hi && lo <= w <= hi
    ensures (h + 1.0) * lo <= w + rest <= (h + 1.0) * hi
  {
    assert (h + 1.0) * lo == h * lo + lo;
    assert (h + 1.0) * hi == h * hi + hi;
  }

  /** No path costs less than nothing when no weight is negative. */
  lemma {:induction false} PathCostNonNegative<N>(edges: map<set<N>, EdgeAttrs>, p: seq<N>, key: string)
    requires Linked(edges, p) && NonNegativeWeights(edges, key)
    ensures PathCost(edges, p, key) >= 0.0
  {
    if |p| >= 2 {
      LinkedTail(edges, p);
      PathCostNonNegative(edges, p[1..], key);
      assert {p[0], p[1]} in edges;
    }
  }

  /** Two weights that agree on every edge give every path the same cost. */
  lemma {:induction false} SameWeights<N>(edges: map<set<N>, EdgeAttrs>, p: seq<N>, key1: string, key2: string)
    requires Linked(edges, p)
    requires forall e :: e in edges ==> Weight(edges[e], key1) == Weight(edges[e], key2)
    ensures PathCost(edges, p, key1) == PathCost(edges, p, key2)
  {
    if |p| >= 2 {
      LinkedTail(edges, p);
      SameWeights(edges, p[1..], key1, key2);
      assert {p[0], p[1]} in edges;
    }
  }

  /** A path without its first node is still linked. */
  lemma LinkedTail<N>(edges: map<set<N>, EdgeAttrs>, p: seq<N>)
    requires Linked(edges, p) && |p| >= 1
    ensures Linked(edges, p[1..])
  {
    forall k | 0 <= k < |p[1..]| - 1 ensures {p[1..][k], p[1..][k + 1]} in edges {
      assert p[1..][k] == p[k + 1] && p[1..][k + 1] == p[k + 2];
    }
  }
}

=== FILE: pathfinder.dfy ===
/**
 * `routing/pathfinder.py`: the `MaritimePathFinder`, which scores points by
 * their nearness to known risk zones, joins every pair of points by an edge
 * weighted for speed, safety or a balance of both, and searches that network
 * from the start point to the end point.
 */
module Pathfinder {
  import opened Basics
  import opened NetworkGraph

  /** A circular risk zone: a centre, a radius in kilometres and a peak risk level. */
  datatype RiskZone = RiskZone(center: Coord, radius: real, level: real)

  /** The zones every path finder starts with. */
  const DefaultRiskZones: seq<RiskZone> := [
    RiskZone(Coord(20.0, -40.0), 500.0, 0.8),
    RiskZone(Coord(10.0, -20.0), 300.0, 0.6),
    RiskZone(Coord(30.0, -60.0), 400.0, 0.7)
  ]

  /** A zone counts for a point only when the point is strictly inside its radius. */
  predicate Covers(z: RiskZone, point: Coord, dist: Distance) {
    dist(point, z.center) < z.radius
  }

  /**
   * The risk a zone gives a point at distance `d` from its centre: the level,
   * falling off with the square of d / radius, so the full level at the
   * centre and nothing on the rim.
   */
  function ZoneRisk(z: RiskZone, d: real): (r: real)
    requires z.radius != 0.0
    ensures d == 0.0 ==> r == z.level
    ensures d == z.radius ==> r == 0.0
  {
    z.level * (1.0 - (d / z.radius) * (d / z.radius))
  }

  /**
   * The accumulator of `calculate_risk` after the loop over `zones`: it
   * starts at 0 and takes the maximum with the risk of each covering zone.
   */
  function MaxZoneRisk(zones: seq<RiskZone>, point: Coord, dist: Distance): (r: real)
    requires NonNegative(dist)
    ensures r >= 0.0
  {
    if zones == [] then 0.0
    else
      var acc := MaxZoneRisk(zones[..|zones| - 1], point, dist);
      var z := zones[|zones| - 1];
      if Covers(z, point, dist) then Max(acc, ZoneRisk(z, dist(point, z.center))) else acc
  }

  /** `calculate_risk(point)`: the largest covering zone's risk, capped at 1. */
  function PointRisk(zones: seq<RiskZone>, point: Coord, dist: Distance): (r: real)
    requires NonNegative(dist)
    ensures 0.0 <= r <= 1.0
  {
    Min(MaxZoneRisk(zones, point, dist), 1.0)
  }

  /**
   * Overlapping zones combine by maximum, not by sum: the accumulated risk is
   * at least every covering zone's risk, and is either 0 or one of them.
   */
  lemma {:induction false} MaxZoneRiskIsMax(zones: seq<RiskZone>, point: Coord, dist: Distance)
    requires NonNegative(dist)
    ensures forall k :: 0 <= k < |zones| && Covers(zones[k], point, dist) ==>
      MaxZoneRisk(zones, point, dist) >= ZoneRisk(zones[k], dist(point, zones[k].center))
    ensures MaxZoneRisk(zones, point, dist) == 0.0
      || exists k :: 0 <= k < |zones| && Covers(zones[k], point, dist)
                     && MaxZoneRisk(zones, point, dist) == ZoneRisk(zones[k], dist(point, zones[k].center))
  {
    if zones != [] {
      var pre := zones[..|zones| - 1];
      MaxZoneRiskIsMax(pre, point, dist);
      forall k | 0 <= k < |pre| ensures pre[k] == zones[k] { }
    }
  }

  /** A point outside every zone has risk 0. */
  lemma OutsideEveryZone(zones: seq<RiskZone>, point: Coord, dist: Distance)
    requires NonNegative(dist)
    requires forall k :: 0 <= k < |zones| ==> !Covers(zones[k], point, dist)
    ensures PointRisk(zones, point, dist) == 0.0
  {
    MaxZoneRiskIsMax(zones, point, dist);
  }

  /** Inside its radius a zone gives at most its level, and more than 0 when its level is positive. */
  lemma ZoneRiskBounds(z: RiskZone, d: real)
    requires 0.0 <= d < z.radius
    ensures z.level >= 0.0 ==> 0.0 <= ZoneRisk(z, d) <= z.level
    ensures z.level > 0.0 ==> ZoneRisk(z, d) > 0.0
  {
    var x := d / z.radius;
    assert 0.0 <= x < 1.0;
    assert 0.0 <= x * x <= x;
    assert 1.0 - x * x > 0.0;
    assert ZoneRisk(z, d) == z.level * (1.0 - x * x);
  }

  /** With the default zones no point's risk exceeds 0.8, so the cap at 1 never applies to them. */
  lemma DefaultRiskAtMost(point: Coord, dist: Distance)
    requires NonNegative(dist)
    ensures PointRisk(DefaultRiskZones, point, dist) <= 0.8
    ensures MaxZoneRisk(DefaultRiskZones, point, dist) == PointRisk(DefaultRiskZones, point, dist)
  {
    MaxZoneRiskIsMax(DefaultRiskZones, point, dist);
    var r := MaxZoneRisk(DefaultRiskZones, point, dist);
    if r != 0.0 {
      var k :| 0 <= k < 3 && Covers(DefaultRiskZones[k], point, dist)
               && r == ZoneRisk(DefaultRiskZones[k], dist(point, DefaultRiskZones[k].center));
      ZoneRiskBounds(DefaultRiskZones[k], dist(point, DefaultRiskZones[k].center));
    }
  }

  /** The attributes of `add_node(i, pos=(lon, lat), risk=risk, lat=lat, lon=lon)`. */
  function PointAttrs(c: Coord, risk: real): NodeAttrs {
    map["pos" := Tuple(c.lon, c.lat), "risk" := Num(risk), "lat" := Num(c.lat), "lon" := Num(c.lon)]
  }

  /** The attributes of the edge between two points `d` apart whose mean risk is `risk`. */
  function RouteEdgeAttrs(d: real, risk: real): EdgeAttrs {
    map["distance" := d, "risk" := risk, "fastest" := d,
        "safest" := d * (1.0 + risk * 5.0), "recommended" := d * (1.0 + risk)]
  }

  /** The risk `calculate_risk` gives each point. */
  function PointRisks(zones: seq<RiskZone>, points: seq<Coord>, dist: Distance): (risks: seq<real>)
    requires NonNegative(dist)
    ensures |risks| == |points| && UnitRisks(risks)
  {
    seq(|points|, i requires 0 <= i < |points| => PointRisk(zones, points[i], dist))
  }

  predicate UnitRisks(risks: seq<real>) {
    forall i :: 0 <= i < |risks| ==> 0.0 <= risks[i] <= 1.0
  }

  /** Nodes `0 .. k - 1`, node i holding points[i] and its risk. */
  function RouteNodes(points: seq<Coord>, risks: seq<real>, k: nat): map<int, NodeAttrs>
    requires k <= |points| && k <= |risks|
  {
    map i | 0 <= i < k :: PointAttrs(points[i], risks[i])
  }

  /** The edge between points i and j: their distance and the mean of their two risks. */
  function PairAttrs(points: seq<Coord>, risks: seq<real>, dist: Distance, i: nat, j: nat): EdgeAttrs
    requires i < |points| && j < |points| && i < |risks| && j < |risks|
  {
    RouteEdgeAttrs(dist(points[i], points[j]), (risks[i] + risks[j]) / 2.0)
  }

  ghost predicate RouteEdges(edges: map<set<int>, EdgeAttrs>, points: seq<Coord>, risks: seq<real>, dist: Distance)
    requires |risks| == |points|
  {
    forall i, j {:trigger PairAttrs(points, risks, dist, i, j)} ::
      0 <= i < j < |points| && {i, j} in edges ==> edges[{i, j}] == PairAttrs(points, risks, dist, i, j)
  }

  /** The positions `0 .. n - 1`, the node keys of a graph built over a list of n points. */
  function Indices(n: nat): seq<int> {
    seq(n, i => i)
  }

  /** A pair of positions is added only once: it is not among the pairs added before it. */
  lemma MeshBeforeFresh(n: nat, i: nat, j: nat)
    requires i < j < n
    ensures {i, j} !in MeshBefore(Indices(n), i, j)
  {
    if {i, j} in MeshBefore(Indices(n), i, j) {
      var k, l :| 0 <= k < l < n && (k < i || (k == i && l < j)) && {Indices(n)[k], Indices(n)[l]} == {i, j};
      PairEq(k, l, i, j);
    }
  }

  /** The route network after the edge loops have joined every pair before (i, j). */
  ghost predicate PartialNetwork(g: GraphData<int>, points: seq<Coord>, risks: seq<real>, dist: Distance, i: nat, j: nat) {
    && |risks| == |points|
    && g.nodes == RouteNodes(points, risks, |points|)
    && g.edges.Keys == MeshBefore(Indices(|points|), i, j)
    && RouteEdges(g.edges, points, risks, dist)
    && WellFormed(g)
  }

  /** The graph `create_route_network(points)` leaves behind when the points have the given risks. */
  ghost predicate IsRouteNetwork(g: GraphData<int>, points: seq<Coord>, risks: seq<real>, dist: Distance) {
    && |risks| == |points|
    && g.nodes == RouteNodes(points, risks, |points|)
    && g.edges.Keys == MeshEdges(Indices(|points|))
    && RouteEdges(g.edges, points, risks, dist)
  }

  /** The node map grows by one point at a time. */
  lemma RouteNodesNext(points: seq<Coord>, risks: seq<real>, k: nat)
    requires k < |points| && k < |risks|
    ensures RouteNodes(points, risks, k + 1) == RouteNodes(points, risks, k)[k := PointAttrs(points[k], risks[k])]
  {
  }

  /**
   * Node k carries exactly four attributes: its risk `risks[k]`, the latitude
   * and longitude of `points[k]`, and the position tuple with longitude first.
   */
  lemma RouteNodeAttrs(points: seq<Coord>, risks: seq<real>, k: nat)
    requires |risks| == |points| && k < |points|
    ensures k in RouteNodes(points, risks, |points|)
    ensures var a := RouteNodes(points, risks, |points|)[k];
      && a.Keys == {"pos", "risk", "lat", "lon"}
      && a["risk"] == Num(risks[k]) && a["lat"] == Num(points[k].lat) && a["lon"] == Num(points[k].lon)
      && a["pos"] == Tuple(a["lon"].x, a["lat"].x)
  {
  }

  /** Recording the attributes of one more pair keeps every recorded edge right. */
  lemma RouteEdgesAdd(edges: map<set<int>, EdgeAttrs>, points: seq<Coord>, risks: seq<real>, dist: Distance, i: nat, j: nat)
    requires |risks| == |points| && i < j < |points|
    requires RouteEdges(edges, points, risks, dist)
    ensures RouteEdges(edges[{i, j} := PairAttrs(points, risks, dist, i, j)], points, risks, dist)
  {
    var edges' := edges[{i, j} := PairAttrs(points, risks, dist, i, j)];
    forall k, l | 0 <= k < l < |points| && {k, l} in edges'
      ensures edges'[{k, l}] == PairAttrs(points, risks, dist, k, l)
    {
      if {k, l} == {i, j} {
        PairEq(k, l, i, j);
      }
    }
  }

  lemma IndicesDistinct(n: nat)
    ensures Distinct(Indices(n))
  {
  }

  /**
   * A route network over n points is complete: nodes exactly 0 .. n - 1, an
   * edge between every two of them, n(n-1)/2 edges and no self-loop.
   */
  lemma RouteNetworkShape(g: GraphData<int>, points: seq<Coord>, risks: seq<real>, dist: Distance)
    requires IsRouteNetwork(g, points, risks, dist)
    ensures forall i :: i in g.nodes <==> 0 <= i < |points|
    ensures forall i, j :: 0 <= i < |points| && 0 <= j < |points| && i != j ==> {i, j} in g.edges
    ensures 2 * |g.edges| == |points| * (|points| - 1)
    ensures forall e :: e in g.edges ==> |e| == 2
  {
    var names := Indices(|points|);
    IndicesDistinct(|points|);
    forall i, j | 0 <= i < |points| && 0 <= j < |points| && i != j ensures {i, j} in g.edges {
      MeshEdgesComplete(names, i, j);
    }
    MeshEdgesCount(names);
    MeshEdgesSimple(names);
    assert |names| == |points| && |g.edges| == |MeshEdges(names)|;
  }

  /** What every edge of a route network carries, and how its weights compare. */
  predicate OrderedWeights(a: EdgeAttrs) {
    && "distance" in a && "risk" in a && "fastest" in a && "safest" in a && "recommended" in a
    && 0.0 <= a["distance"] && 0.0 <= a["risk"] <= 1.0
    && a["fastest"] == a["distance"] <= a["recommended"] <= a["safest"]
  }

  /**
   * Every edge's risk lies in [0, 1], and its fastest weight (the distance)
   * is at most its recommended weight, which is at most its safest weight.
   */
  lemma RouteEdgeWeights(g: GraphData<int>, points: seq<Coord>, risks: seq<real>, dist: Distance)
    requires NonNegative(dist) && UnitRisks(risks) && IsRouteNetwork(g, points, risks, dist)
    ensures forall e :: e in g.edges ==> OrderedWeights(g.edges[e])
  {
    forall e | e in g.edges ensures OrderedWeights(g.edges[e]) {
      RouteEdgeWeightsAt(g, points, risks, dist, e);
    }
  }

  lemma RouteEdgeWeightsAt(g: GraphData<int>, points: seq<Coord>, risks: seq<real>, dist: Distance, e: set<int>)
    requires NonNegative(dist) && UnitRisks(risks) && IsRouteNetwork(g, points, risks, dist)
    requires e in g.edges
    ensures OrderedWeights(g.edges[e])
  {
    var names := Indices(|points|);
    MeshEdgeEnds(names, e);
    var k, l :| 0 <= k < l < |points| && e == {names[k], names[l]};
    assert e == {k, l};
    assert g.edges[e] == PairAttrs(points, risks, dist, k, l);
    WeightsOrdered(dist(points[k], points[l]), (risks[k] + risks[l]) / 2.0);
  }

  /** The three weight formulas are ordered for a non-negative distance and a risk in [0, 1]. */
  lemma WeightsOrdered(d: real, risk: real)
    requires d >= 0.0 && 0.0 <= risk <= 1.0
    ensures OrderedWeights(RouteEdgeAttrs(d, risk))
  {
    assert d * risk >= 0.0;
    assert d * (1.0 + risk) == d + d * risk;
    assert d * (1.0 + risk * 5.0) == d + 5.0 * (d * risk);
  }

  /** Two different points of a route network are joined by an edge. */
  lemma RouteEdgeAt(g: GraphData<int>, points: seq<Coord>, risks: seq<real>, dist: Distance, i: nat, j: nat)
    requires IsRouteNetwork(g, points, risks, dist)
    requires i < |points| && j < |points| && i != j
    ensures {i, j} in g.edges
  {
    MeshEdgesComplete(Indices(|points|), i, j);
  }

  /** The direct edge from the first point to the last is a path, so a search never finds none. */
  lemma DirectPath(g: GraphData<int>, points: seq<Coord>, risks: seq<real>, dist: Distance)
    requires IsRouteNetwork(g, points, risks, dist) && |points| >= 2
    ensures IsPath(g, [0, |points| - 1], 0, |points| - 1)
  {
    RouteEdgeAt(g, points, risks, dist, 0, |points| - 1);
    var p := [0, |points| - 1];
  }

  /** The direct edge's fastest weight is the distance between the first point and the last. */
  lemma DirectPathCost(g: GraphData<int>, points: seq<Coord>, risks: seq<real>, dist: Distance)
    requires IsRouteNetwork(g, points, risks, dist) && |points| >= 2
    requires {0, |points| - 1} in g.edges
    ensures Linked(g.edges, [0, |points| - 1])
    ensures PathCost(g.edges, [0, |points| - 1], "fastest") == dist(points[0], points[|points| - 1])
  {
    assert g.edges[{0, |points| - 1}] == PairAttrs(points, risks, dist, 0, |points| - 1);
  }

  /** `weight_map.get(path_type, 'recommended')`. */
  const WeightMap: map<string, string> := map["fastest" := "fastest", "safest" := "safest", "recommended" := "recommended"]

  /** The weight a search uses: the path type when it is known, `recommended` otherwise. */
  function WeightKey(pathType: string): (key: string)
    ensures key in {"fastest", "safest", "recommended"}
    ensures pathType in {"fastest", "safest", "recommended"} ==> key == pathType
    ensures pathType !in {"fastest", "safest", "recommended"} ==> key == "recommended"
  {
    if pathType in WeightMap then WeightMap[pathType] else "recommended"
  }

  /** `[start] + waypoints + [end]`, with `None` waypoints read as none. */
  function AllPoints(start: Coord, waypoints: Option<seq<Coord>>, end: Coord): (points: seq<Coord>)
    ensures |points| >= 2 && points[0] == start && points[|points| - 1] == end
  {
    [start] + (if waypoints.Some? then waypoints.value else []) + [end]
  }

  /** `[all_points[i] for i in node_path]`. */
  function PathCoords(points: seq<Coord>, nodePath: seq<int>): (path: seq<Coord>)
    requires forall k :: 0 <= k < |nodePath| ==> 0 <= nodePath[k] < |points|
    ensures |path| == |nodePath|
    ensures forall k :: 0 <= k < |path| ==> path[k] == points[nodePath[k]]
  {
    seq(|nodePath|, k requires 0 <= k < |nodePath| => points[nodePath[k]])
  }

  /** `max(1, len(node_path) - 1)`: the divisor of the average risk. */
  function Hops(nodePath: seq<int>): (h: nat)
    ensures h >= 1 && h >= |nodePath| - 1
    ensures h == 1 || h == |nodePath| - 1
  {
    if |nodePath| - 1 > 1 then |nodePath| - 1 else 1
  }

  /** The mean edge risk along a node path: times the hop count it gives back the summed risk. */
  function AverageRisk(edges: map<set<int>, EdgeAttrs>, nodePath: seq<int>): (a: real)
    requires Linked(edges, nodePath)
    ensures a * Hops(nodePath) as real == PathCost(edges, nodePath, "risk")
  {
    PathCost(edges, nodePath, "risk") / Hops(nodePath) as real
  }

  /** What `find_path` returns. */
  datatype Route = Route(path: seq<Coord>, distanceKm: real, averageRisk: real, waypoints: seq<Coord>,
                         pathType: string, nodePath: seq<int>)

  /** Why `find_path` may raise. */
  datatype RouteError = NoValidPath | MissingNode | ContradictoryPaths

  /** `route` describes the node path the search took through the route network `g` over `points`. */
  ghost predicate DescribesPath(route: Route, g: GraphData<int>, points: seq<Coord>)
    requires |points| >= 1
  {
    && IsPath(g, route.nodePath, 0, |points| - 1)
    && (forall k :: 0 <= k < |route.nodePath| ==> 0 <= route.nodePath[k] < |points|)
    && route.path == PathCoords(points, route.nodePath)
    && route.distanceKm == PathCost(g.edges, route.nodePath, "distance")
    && route.averageRisk == AverageRisk(g.edges, route.nodePath)
  }

  /** A found node path is the cheapest from the first point to the last by the chosen weight. */
  ghost predicate Cheapest(nodePath: seq<int>, g: GraphData<int>, n: nat, key: string)
    requires n >= 1 && IsPath(g, nodePath, 0, n - 1)
  {
    forall q :: IsPath(g, q, 0, n - 1) ==> PathCost(g.edges, nodePath, key) <= PathCost(g.edges, q, key)
  }

  /**
   * What `find_path` makes of the search's answer: a found node path becomes
   * a route describing it, and each exception of `shortest_path` becomes the
   * matching error.
   */
  function RouteOf(g: GraphData<int>, points: seq<Coord>, outcome: PathOutcome<int>,
                   waypoints: seq<Coord>, pathType: string): (r: Result<Route, RouteError>)
    requires |points| >= 2
    requires outcome.Found? ==> IsPath(g, outcome.path, 0, |points| - 1)
    requires outcome.Found? ==> forall k :: 0 <= k < |outcome.path| ==> 0 <= outcome.path[k] < |points|
    ensures outcome.Found? <==> r.Ok?
    ensures r.Ok? ==> && r.value.nodePath == outcome.path && DescribesPath(r.value, g, points)
                      && r.value.waypoints == waypoints && r.value.pathType == pathType
    ensures outcome.NoPath? ==> r == Err(NoValidPath)
    ensures outcome.NodeNotFound? ==> r == Err(MissingNode)
    ensures outcome.NegativeWeights? ==> r == Err(ContradictoryPaths)
  {
    match outcome
    case Found(nodePath) =>
      Ok(Route(PathCoords(points, nodePath), PathCost(g.edges, nodePath, "distance"),
               AverageRisk(g.edges, nodePath), waypoints, pathType, nodePath))
    case NoPath => Err(NoValidPath)
    case NodeNotFound => Err(MissingNode)
    case NegativeWeights => Err(ContradictoryPaths)
  }

  /** The route begins at the start point and ends at the end point. */
  lemma RouteEnds(route: Route, g: GraphData<int>, points: seq<Coord>)
    requires |points| >= 1 && DescribesPath(route, g, points)
    ensures |route.path| >= 1 && route.path[0] == points[0] && route.path[|route.path| - 1] == points[|points| - 1]
  {
  }

  /** In a route network the average risk of a route lies in [0, 1]. */
  lemma AverageRiskBounds(route: Route, g: GraphData<int>, points: seq<Coord>, risks: seq<real>, dist: Distance)
    requires NonNegative(dist) && UnitRisks(risks) && IsRouteNetwork(g, points, risks, dist) && |points| >= 1
    requires DescribesPath(route, g, points)
    ensures 0.0 <= route.averageRisk <= 1.0
  {
    EdgeRisksInUnit(g, points, risks, dist);
    PathAverageInUnit(g.edges, route.nodePath);
  }

  /** The mean of edge risks that each lie in [0, 1] lies in [0, 1]. */
  lemma PathAverageInUnit(edges: map<set<int>, EdgeAttrs>, p: seq<int>)
    requires Linked(edges, p) && |p| >= 1
    requires forall e :: e in edges ==> 0.0 <= Weight(edges[e], "risk") <= 1.0
    ensures 0.0 <= AverageRisk(edges, p) <= 1.0
  {
    PathCostBounds(edges, p, "risk", 0.0, 1.0);
    MeanInUnit(PathCost(edges, p, "risk"), |p| - 1, Hops(p));
  }

  /** Every edge's risk weight lies in [0, 1]. */
  lemma EdgeRisksInUnit(g: GraphData<int>, points: seq<Coord>, risks: seq<real>, dist: Distance)
    requires NonNegative(dist) && UnitRisks(risks) && IsRouteNetwork(g, points, risks, dist)
    ensures forall e :: e in g.edges ==> 0.0 <= Weight(g.edges[e], "risk") <= 1.0
  {
    RouteEdgeWeights(g, points, risks, dist);
  }

  /** A sum of `hops` values in [0, 1], divided by at least `hops` and at least 1, lies in [0, 1]. */
  lemma MeanInUnit(sum: real, hops: int, divisor: nat)
    requires 0.0 <= sum <= hops as real && hops <= divisor && divisor >= 1
    ensures 0.0 <= sum / divisor as real <= 1.0
  {
  }

  /** The fastest route is never longer than the direct edge from start to end. */
  lemma FastestNoLongerThanDirect(route: Route, g: GraphData<int>, points: seq<Coord>, risks: seq<real>, dist: Distance)
    requires NonNegative(dist) && UnitRisks(risks) && IsRouteNetwork(g, points, risks, dist) && |points| >= 2
    requires DescribesPath(route, g, points) && Cheapest(route.nodePath, g, |points|, "fastest")
    ensures route.distanceKm <= dist(points[0], points[|points| - 1])
  {
    RouteEdgeWeights(g, points, risks, dist);
    DirectPath(g, points, risks, dist);
    DirectPathCost(g, points, risks, dist);
    SameWeights(g.edges, route.nodePath, "distance", "fastest");
  }

  /** Every weight a search may use is non-negative on a route network. */
  lemma RouteWeightsNonNegative(g: GraphData<int>, points: seq<Coord>, risks: seq<real>, dist: Distance, key: string)
    requires NonNegative(dist) && UnitRisks(risks) && IsRouteNetwork(g, points, risks, dist)
    requires key in {"fastest", "safest", "recommended"}
    ensures NonNegativeWeights(g.edges, key)
  {
    RouteEdgeWeights(g, points, risks, dist);
  }

  /**
   * On a route network over at least two points whose weights under `key` are
   * non-negative, the search from the first point to the last always finds a path.
   */
  lemma SearchFinds(g: GraphData<int>, points: seq<Coord>, risks: seq<real>, dist: Distance,
                    key: string, outcome: PathOutcome<int>)
    requires IsRouteNetwork(g, points, risks, dist) && |points| >= 2
    requires NonNegativeWeights(g.edges, key)
    requires ShortestPathAnswer(g, 0, |points| - 1, key, outcome)
    ensures outcome.Found?
  {
    DirectPath(g, points, risks, dist);
  }

  /** A found path visits only nodes of the network, and is the cheapest by its weight. */
  lemma FoundRoute(g: GraphData<int>, points: seq<Coord>, risks: seq<real>, dist: Distance,
                   key: string, nodePath: seq<int>)
    requires NonNegative(dist) && UnitRisks(risks) && IsRouteNetwork(g, points, risks, dist) && |points| >= 2
    requires key in {"fastest", "safest", "recommended"}
    requires ShortestPathAnswer(g, 0, |points| - 1, key, Found(nodePath))
    ensures IsPath(g, nodePath, 0, |points| - 1)
    ensures forall k :: 0 <= k < |nodePath| ==> 0 <= nodePath[k] < |points|
    ensures Cheapest(nodePath, g, |points|, key)
  {
    RouteWeightsNonNegative(g, points, risks, dist, key);
    forall k | 0 <= k < |nodePath| ensures 0 <= nodePath[k] < |points| {
      assert nodePath[k] in g.nodes;
    }
  }

  /** A sound search over a route network finds the cheapest path from the first point to the last. */
  lemma SoundSearchFinds(shortest: ShortestPathOracle<int>, g: GraphData<int>, points: seq<Coord>, risks: seq<real>,
                         dist: Distance, key: string, outcome: PathOutcome<int>)
    requires SoundOracle(shortest)
    requires NonNegative(dist) && UnitRisks(risks) && IsRouteNetwork(g, points, risks, dist) && |points| >= 2
    requires key in {"fastest", "safest", "recommended"}
    requires outcome == shortest(g, 0, |points| - 1, key)
    ensures outcome.Found? && IsPath(g, outcome.path, 0, |points| - 1)
    ensures forall k :: 0 <= k < |outcome.path| ==> 0 <= outcome.path[k] < |points|
    ensures Cheapest(outcome.path, g, |points|, key)
  {
    SoundAnswer(shortest, g, 0, |points| - 1, key);
    RouteWeightsNonNegative(g, points, risks, dist, key);
    SearchFinds(g, points, risks, dist, key, outcome);
    FoundRoute(g, points, risks, dist, key, outcome.path);
  }

  class MaritimePathFinder {
    const graph: Graph<int>
    const riskZones: seq<RiskZone>

    /** `MaritimePathFinder()`: an empty graph and the default risk zones. */
    constructor ()
      ensures fresh(graph) && graph.nodes == map[] && graph.edges == map[]
      ensures riskZones == DefaultRiskZones
    {
      graph := new Graph();
      riskZones := DefaultRiskZones;
    }

    /** `calculate_risk(point)`. */
    method CalculateRisk(point: Coord, dist: Distance) returns (risk: real)
      requires NonNegative(dist)
      ensures risk == PointRisk(riskZones, point, dist)
      ensures 0.0 <= risk <= 1.0
    {
      var total := 0.0;
      for k := 0 to |riskZones|
        invariant total == MaxZoneRisk(riskZones[..k], point, dist)
      {
        var zone := riskZones[k];
        var d := dist(point, zone.center);
        if d < zone.radius {
          total := Max(total, ZoneRisk(zone, d));
        }
        assert riskZones[..k + 1][..k] == riskZones[..k];
      }
      assert riskZones[..|riskZones|] == riskZones;
      risk := Min(total, 1.0);
    }

    /**
     * `create_route_network(points)`: clears the graph, adds node i for
     * points[i] with its risk, then joins every pair i < j.
     */
    method CreateRouteNetwork(points: seq<Coord>, dist: Distance) returns (g: Graph<int>)
      requires NonNegative(dist)
      modifies graph
      ensures g == graph
      ensures IsRouteNetwork(graph.Data(), points, PointRisks(riskZones, points, dist), dist)
      ensures WellFormed(graph.Data())
    {
      graph.Clear();
      ghost var risks := PointRisks(riskZones, points, dist);
      AddRouteNodes(points, dist, risks);
      AddRouteEdges(points, risks, dist);
      g := graph;
    }

    /** The first loop: node i for points[i], holding its position and risk. */
    method AddRouteNodes(points: seq<Coord>, dist: Distance, ghost risks: seq<real>)
      requires NonNegative(dist) && risks == PointRisks(riskZones, points, dist)
      requires graph.nodes == map[] && graph.edges == map[]
      modifies graph
      ensures graph.nodes == RouteNodes(points, risks, |points|)
      ensures graph.edges == map[]
      ensures WellFormed(graph.Data())
    {
      for i := 0 to |points|
        invariant graph.nodes == RouteNodes(points, risks, i)
        invariant graph.edges == map[]
        invariant WellFormed(graph.Data())
      {
        var risk := CalculateRisk(points[i], dist);
        graph.AddNode(i, PointAttrs(points[i], risk));
        RouteNodesNext(points, risks, i);
      }
    }

    /** The nested loops over i < j: every pair of points joined once. */
    method AddRouteEdges(points: seq<Coord>, ghost risks: seq<real>, dist: Distance)
      requires |risks| == |points|
      requires graph.nodes == RouteNodes(points, risks, |points|) && graph.edges == map[]
      requires WellFormed(graph.Data())
      modifies graph
      ensures IsRouteNetwork(graph.Data(), points, risks, dist)
      ensures WellFormed(graph.Data())
    {
      var n := |points|;
      ghost var names := Indices(n);
      assert |names| == n;
      MeshBeforeStart(names);
      for i := 0 to n
        invariant PartialNetwork(graph.Data(), points, risks, dist, i, i + 1)
      {
        AddRouteRow(points, risks, dist, i);
        MeshBeforeRow(names, i);
      }
      MeshBeforeEnd(names);
    }

    /** The inner loop: point i joined to every later point. */
    method AddRouteRow(points: seq<Coord>, ghost risks: seq<real>, dist: Distance, i: nat)
      requires i < |points|
      requires PartialNetwork(graph.Data(), points, risks, dist, i, i + 1)
      modifies graph
      ensures PartialNetwork(graph.Data(), points, risks, dist, i, |points|)
    {
      for j := i + 1 to |points|
        invariant PartialNetwork(graph.Data(), points, risks, dist, i, j)
      {
        AddRouteEdge(points, risks, dist, i, j);
      }
    }

    /** One step of the inner loop: the edge between points i and j, its risk read back from the two nodes. */
    method AddRouteEdge(points: seq<Coord>, ghost risks: seq<real>, dist: Distance, i: nat, j: nat)
      requires i < j < |points|
      requires PartialNetwork(graph.Data(), points, risks, dist, i, j)
      modifies graph
      ensures PartialNetwork(graph.Data(), points, risks, dist, i, j + 1)
    {
      RouteNodeAttrs(points, risks, i);
      RouteNodeAttrs(points, risks, j);
      var distance := dist(points[i], points[j]);
      var risk := (graph.nodes[i]["risk"].x + graph.nodes[j]["risk"].x) / 2.0;
      assert RouteEdgeAttrs(distance, risk) == PairAttrs(points, risks, dist, i, j);
      MeshBeforeFresh(|points|, i, j);
      ghost var before := graph.edges;
      graph.AddEdge(i, j, RouteEdgeAttrs(distance, risk));
      assert graph.edges == before[{i, j} := PairAttrs(points, risks, dist, i, j)];
      RouteEdgesAdd(before, points, risks, dist, i, j);
      MeshBeforeNext(Indices(|points|), i, j);
    }

    /**
     * `find_path(start, end, waypoints, path_type)`: builds the route network
     * over `[start] + waypoints + [end]` and searches it from node 0 to the
     * last node by the weight the path type selects. The network is complete,
     * so the search always finds a route.
     */
    method FindPath(dist: Distance, shortest: ShortestPathOracle<int>, start: Coord, end: Coord,
                    waypoints: Option<seq<Coord>> := None, pathType: string := "recommended")
      returns (r: Result<Route, RouteError>)
      requires NonNegative(dist) && SoundOracle(shortest)
      modifies graph
      ensures var points := AllPoints(start, waypoints, end);
        && IsRouteNetwork(graph.Data(), points, PointRisks(riskZones, points, dist), dist)
        && r.Ok?
        && DescribesPath(r.value, graph.Data(), points)
        && Cheapest(r.value.nodePath, graph.Data(), |points|, WeightKey(pathType))
        && r.value.waypoints == (if waypoints.Some? then waypoints.value else [])
        && r.value.pathType == pathType
    {
      var wps := if waypoints.Some? then waypoints.value else [];
      var allPoints := AllPoints(start, waypoints, end);
      var _ := CreateRouteNetwork(allPoints, dist);
      ghost var risks := PointRisks(riskZones, allPoints, dist);
      ghost var g := graph.Data();
      var n := |allPoints|;
      var key := WeightKey(pathType);
      var outcome := shortest(graph.Data(), 0, n - 1, key);
      SoundSearchFinds(shortest, g, allPoints, risks, dist, key, outcome);
      r := RouteOf(graph.Data(), allPoints, outcome, wps, pathType);
    }
  }
}

=== FILE: pathfinding.dfy ===
/**
 * `routing/pathfinding.py`: the fastest, safest and recommended searches
 * over a port graph. The safest and recommended searches annotate every
 * edge of a copy of the graph with a cost and search the copy by it.
 */
module Pathfinding {
  import opened NetworkGraph

  /** `risk_func(u, v, data)`: the risk of an edge, given its end points and its attributes. */
  type RiskFunc<!N> = (set<N>, EdgeAttrs) -> real

  /** A cost computed for an edge from its end points and its attributes. */
  type EdgeCost<!N> = (set<N>, EdgeAttrs) -> real

  /** `data.get("distance", 1.0)`: the same reading `shortest_path` makes of the `distance` weight. */
  function EdgeDistance(attrs: EdgeAttrs): (d: real)
    ensures d == Weight(attrs, "distance")
  {
    if "distance" in attrs then attrs["distance"] else 1.0
  }

  /** The safest cost of an edge: its distance scaled up by its risk; never below the distance, and equal to it without risk. */
  function RiskCost(d: real, risk: real): (c: real)
    ensures d >= 0.0 && risk >= 0.0 ==> c >= d
    ensures risk == 0.0 ==> c == d
  {
    d * (1.0 + risk)
  }

  /**
   * The recommended cost: a blend, weighted by `alpha`, of distance and
   * safest cost; it adds to the distance the share 1 - alpha of the surcharge
   * the safest cost puts on it.
   */
  function ComboCost(d: real, risk: real, alpha: real): (c: real)
    ensures c - d == (1.0 - alpha) * (RiskCost(d, risk) - d)
  {
    alpha * d + (1.0 - alpha) * d * (1.0 + risk)
  }

  function SafeEdgeCost<N>(riskFunc: RiskFunc<N>): EdgeCost<N> {
    (e, attrs) => RiskCost(EdgeDistance(attrs), riskFunc(e, attrs))
  }

  function ComboEdgeCost<N>(riskFunc: RiskFunc<N>, alpha: real): EdgeCost<N> {
    (e, attrs) => ComboCost(EdgeDistance(attrs), riskFunc(e, attrs), alpha)
  }

  /** Every edge's dictionary with `key` set to the cost of that edge as it was. */
  function Annotated<N(==)>(edges: map<set<N>, EdgeAttrs>, key: string, cost: EdgeCost<N>): (r: map<set<N>, EdgeAttrs>)
    ensures r.Keys == edges.Keys
  {
    map e | e in edges :: edges[e][key := cost(e, edges[e])]
  }

  /**
   * `for u, v, data in g.edges(data=True): data[key] = cost(...)`: each edge
   * dictionary of `g` gains `key`, costed from what it held before, and
   * nothing else changes.
   */
  method AnnotateEdges<N(==)>(g: Graph<N>, key: string, cost: EdgeCost<N>)
    modifies g
    ensures g.nodes == old(g.nodes)
    ensures g.edges == Annotated(old(g.edges), key, cost)
  {
    var todo := g.edges.Keys;
    while todo != {}
      invariant g.nodes == old(g.nodes)
      invariant g.edges.Keys == old(g.edges).Keys && todo <= g.edges.Keys
      invariant forall e :: e in g.edges ==>
        g.edges[e] == if e in todo then old(g.edges)[e] else old(g.edges)[e][key := cost(e, old(g.edges)[e])]
      decreases todo
    {
      var e :| e in todo;
      var data := g.edges[e];
      g.SetEdgeAttr(e, key, cost(e, data));
      todo := todo - {e};
    }
  }

  /** Annotation keeps the nodes and edges, so a graph and its annotated copy have the same paths. */
  lemma AnnotatedSamePaths<N>(g: GraphData<N>, key: string, cost: EdgeCost<N>, p: seq<N>, s: N, t: N)
    ensures IsPath(g, p, s, t) <==> IsPath(GraphData(g.nodes, Annotated(g.edges, key, cost)), p, s, t)
  {
  }

  /** `fastest_path`: the search by the `distance` attribute. */
  function FastestPath<N(==,!new)>(g: GraphData<N>, start: N, end: N, shortest: ShortestPathOracle<N>): (r: PathOutcome<N>)
    requires SoundOracle(shortest)
    ensures ShortestPathAnswer(g, start, end, "distance", r)
  {
    SoundAnswer(shortest, g, start, end, "distance");
    shortest(g, start, end, "distance")
  }

  /**
   * `safest_path`: searches a copy of the graph whose edges carry
   * `risk_cost = distance * (1 + risk)`. The method may modify nothing, so
   * the caller's graph and its edge dictionaries are left as they were.
   */
  method SafestPath<N(==,!new)>(graph: Graph<N>, start: N, end: N, riskFunc: RiskFunc<N>, shortest: ShortestPathOracle<N>)
    returns (r: PathOutcome<N>)
    requires SoundOracle(shortest)
    ensures ShortestPathAnswer(GraphData(graph.nodes, Annotated(graph.edges, "risk_cost", SafeEdgeCost(riskFunc))),
                               start, end, "risk_cost", r)
    ensures r.Found? ==> IsPath(graph.Data(), r.path, start, end)
  {
    var g := graph.Copy();
    AnnotateEdges(g, "risk_cost", SafeEdgeCost(riskFunc));
    SoundAnswer(shortest, g.Data(), start, end, "risk_cost");
    r := shortest(g.Data(), start, end, "risk_cost");
    if r.Found? {
      AnnotatedSamePaths(graph.Data(), "risk_cost", SafeEdgeCost(riskFunc), r.path, start, end);
    }
  }

  /**
   * `recommended_path`: searches a copy of the graph whose edges carry
   * `combo_cost = alpha * distance + (1 - alpha) * distance * (1 + risk)`,
   * leaving the caller's graph as it was.
   */
  method RecommendedPath<N(==,!new)>(graph: Graph<N>, start: N, end: N, riskFunc: RiskFunc<N>,
                                shortest: ShortestPathOracle<N>, alpha: real := 0.5)
    returns (r: PathOutcome<N>)
    requires SoundOracle(shortest)
    ensures ShortestPathAnswer(GraphData(graph.nodes, Annotated(graph.edges, "combo_cost", ComboEdgeCost(riskFunc, alpha))),
                               start, end, "combo_cost", r)
    ensures r.Found? ==> IsPath(graph.Data(), r.path, start, end)
  {
    var g := graph.Copy();
    AnnotateEdges(g, "combo_cost", ComboEdgeCost(riskFunc, alpha));
    SoundAnswer(shortest, g.Data(), start, end, "combo_cost");
    r := shortest(g.Data(), start, end, "combo_cost");
    if r.Found? {
      AnnotatedSamePaths(graph.Data(), "combo_cost", ComboEdgeCost(riskFunc, alpha), r.path, start, end);
    }
  }

  /**
   * A risk below -1 on an edge of positive length makes its `risk_cost`
   * negative, so `safest_path` may end in the negative-weight `ValueError`
   * instead of a path.
   */
  lemma NegativeRiskMayRaise<N(!new)>(g: GraphData<N>, riskFunc: RiskFunc<N>, e: set<N>, s: N, t: N)
    requires s in g.nodes && t in g.nodes
    requires e in g.edges && EdgeDistance(g.edges[e]) > 0.0 && riskFunc(e, g.edges[e]) < -1.0
    ensures ShortestPathAnswer(GraphData(g.nodes, Annotated(g.edges, "risk_cost", SafeEdgeCost(riskFunc))),
                               s, t, "risk_cost", NegativeWeights)
  {
    var safe := Annotated(g.edges, "risk_cost", SafeEdgeCost(riskFunc));
    var d, risk := EdgeDistance(g.edges[e]), riskFunc(e, g.edges[e]);
    assert d * (1.0 + risk) < 0.0 by {
      assert 1.0 + risk < 0.0;
      assert d * -(1.0 + risk) > 0.0;
    }
    assert Weight(safe[e], "risk_cost") < 0.0;
  }

  /** With `alpha = 1` the recommended cost is the distance, with `alpha = 0` it is the safest cost. */
  lemma ComboCostEnds(d: real, risk: real)
    ensures ComboCost(d, risk, 1.0) == d
    ensures ComboCost(d, risk, 0.0) == RiskCost(d, risk)
  {
  }

  /** For a non-negative distance and risk, the recommended cost lies between the distance and the safest cost. */
  lemma ComboCostBetween(d: real, risk: real, alpha: real)
    requires d >= 0.0 && risk >= 0.0 && 0.0 <= alpha <= 1.0
    ensures d <= ComboCost(d, risk, alpha) <= RiskCost(d, risk)
  {
    var dr := d * risk;
    assert dr >= 0.0;
    assert ComboCost(d, risk, alpha) == d + (1.0 - alpha) * dr;
    assert RiskCost(d, risk) == ComboCost(d, risk, alpha) + alpha * dr;
  }

  /** Distances and risks that the cost formulas treat as non-negative. */
  ghost predicate NonNegativeEdges<N>(edges: map<set<N>, EdgeAttrs>, riskFunc: RiskFunc<N>) {
    forall e :: e in edges ==> EdgeDistance(edges[e]) >= 0.0 && riskFunc(e, edges[e]) >= 0.0
  }

  /**
   * Along any path, the total distance is at most the total recommended cost,
   * which is at most the total safest cost.
   */
  lemma {:induction false} PathCostsOrdered<N>(edges: map<set<N>, EdgeAttrs>, riskFunc: RiskFunc<N>, alpha: real, p: seq<N>)
    requires NonNegativeEdges(edges, riskFunc) && 0.0 <= alpha <= 1.0
    requires Linked(edges, p)
    ensures Linked(Annotated(edges, "combo_cost", ComboEdgeCost(riskFunc, alpha)), p)
    ensures Linked(Annotated(edges, "risk_cost", SafeEdgeCost(riskFunc)), p)
    ensures PathCost(edges, p, "distance")
            <= PathCost(Annotated(edges, "combo_cost", ComboEdgeCost(riskFunc, alpha)), p, "combo_cost")
            <= PathCost(Annotated(edges, "risk_cost", SafeEdgeCost(riskFunc)), p, "risk_cost")
  {
    var combo := Annotated(edges, "combo_cost", ComboEdgeCost(riskFunc, alpha));
    var safe := Annotated(edges, "risk_cost", SafeEdgeCost(riskFunc));
    if |p| >= 2 {
      LinkedTail(edges, p);
      PathCostsOrdered(edges, riskFunc, alpha, p[1..]);
      var e := {p[0], p[1]};
      assert e in edges;
      var d, risk := EdgeDistance(edges[e]), riskFunc(e, edges[e]);
      ComboCostBetween(d, risk, alpha);
      assert Weight(edges[e], "distance") == d;
      assert Weight(combo[e], "combo_cost") == ComboCost(d, risk, alpha);
      assert Weight(safe[e], "risk_cost") == RiskCost(d, risk);
    }
  }

  /**
   * The fastest route is never longer than the safest route, whose length
   * is in turn at most its safest cost. It holds for any answers that keep
   * the search contract, such as the results of `FastestPath` and `SafestPath`.
   */
  lemma FastestIsShortest<N(!new)>(g: GraphData<N>, riskFunc: RiskFunc<N>, s: N, t: N,
                                   fastest: PathOutcome<N>, safest: PathOutcome<N>)
    requires NonNegativeEdges(g.edges, riskFunc)
    requires ShortestPathAnswer(g, s, t, "distance", fastest) && fastest.Found?
    requires ShortestPathAnswer(GraphData(g.nodes, Annotated(g.edges, "risk_cost", SafeEdgeCost(riskFunc))),
                                s, t, "risk_cost", safest)
    ensures var safe := Annotated(g.edges, "risk_cost", SafeEdgeCost(riskFunc));
      && safest.Found? && Linked(g.edges, safest.path)
      && PathCost(g.edges, fastest.path, "distance") <= PathCost(g.edges, safest.path, "distance")
      && PathCost(g.edges, safest.path, "distance") <= PathCost(safe, safest.path, "risk_cost")
  {
    var safe := Annotated(g.edges, "risk_cost", SafeEdgeCost(riskFunc));
    AnnotatedSamePaths(g, "risk_cost", SafeEdgeCost(riskFunc), fastest.path, s, t);
    assert IsPath(GraphData(g.nodes, safe), fastest.path, s, t);
    assert safest.Found?;
    AnnotatedSamePaths(g, "risk_cost", SafeEdgeCost(riskFunc), safest.path, s, t);
    PathCostsOrdered(g.edges, riskFunc, 0.5, safest.path);
  }
}

=== FILE: port_graph.dfy ===
/**
 * `routing/graph.py`: ports and the full-mesh graph built over them, each
 * edge weighted by the haversine distance between its two ports.
 */
module PortGraph {
  import opened Basics
  import opened NetworkGraph

  /** A named port at a `(lat, lon)` position. */
  datatype Port = Port(name: string, coord: Coord)

  function Names(ports: seq<Port>): seq<string> {
    seq(|ports|, k requires 0 <= k < |ports| => ports[k].name)
  }

  /**
   * The coordinate stored under each name once every port has been added:
   * a later port with the same name overwrites an earlier one.
   */
  function PortCoords(ports: seq<Port>): map<string, Coord> {
    if ports == [] then map[]
    else
      var last := ports[|ports| - 1];
      PortCoords(ports[..|ports| - 1])[last.name := last.coord]
  }

  /** Exactly the port names are stored. */
  lemma {:induction false} PortCoordsKeys(ports: seq<Port>)
    ensures forall n :: n in PortCoords(ports) <==> n in Names(ports)
  {
    if ports != [] {
      var pre := ports[..|ports| - 1];
      PortCoordsKeys(pre);
      var last := ports[|ports| - 1];
      assert PortCoords(ports) == PortCoords(pre)[last.name := last.coord];
      assert Names(ports)[|ports| - 1] == last.name;
      forall n ensures n in Names(pre) ==> n in Names(ports) {
        if n in Names(pre) {
          var k :| 0 <= k < |pre| && Names(pre)[k] == n;
          assert Names(ports)[k] == n;
        }
      }
      forall n ensures n in Names(ports) ==> n in Names(pre) || n == ports[|ports| - 1].name {
        if n in Names(ports) {
          var k :| 0 <= k < |ports| && Names(ports)[k] == n;
          if k < |pre| { assert Names(pre)[k] == n; }
        }
      }
    }
  }

  /** A port whose name no later port reuses keeps its coordinate. */
  lemma {:induction false} PortCoordsLastWins(ports: seq<Port>, k: nat)
    requires k < |ports|
    requires forall l :: k < l < |ports| ==> ports[l].name != ports[k].name
    ensures ports[k].name in PortCoords(ports) && PortCoords(ports)[ports[k].name] == ports[k].coord
  {
    if k < |ports| - 1 {
      var pre := ports[..|ports| - 1];
      assert pre[k] == ports[k];
      PortCoordsLastWins(pre, k);
    }
  }

  /** The attribute dictionary of `add_node(name, coord=c)`. */
  function CoordAttrs(c: Coord): NodeAttrs {
    map["coord" := Tuple(c.lat, c.lon)]
  }

  function CoordNodes(coords: map<string, Coord>): map<string, NodeAttrs> {
    map n | n in coords :: CoordAttrs(coords[n])
  }

  /** The attribute dictionary of `add_edge(a, b, distance=d)`. */
  function DistanceAttrs(d: real): EdgeAttrs {
    map["distance" := d]
  }

  /** Looking a stored name up gives its coordinate back as a tuple. */
  lemma CoordNodesAt(coords: map<string, Coord>, n: string)
    requires n in coords
    ensures n in CoordNodes(coords) && CoordNodes(coords)[n] == CoordAttrs(coords[n])
  {
  }

  lemma CoordNodesUpdate(coords: map<string, Coord>, n: string, c: Coord)
    ensures CoordNodes(coords[n := c]) == CoordNodes(coords)[n := CoordAttrs(c)]
  {
  }

  /**
   * The distance every edge of the mesh over `names` should carry: that of
   * the two end points' stored coordinates.
   */
  ghost predicate EdgeDistances(edges: map<set<string>, EdgeAttrs>, names: seq<string>,
                                coords: map<string, Coord>, haversine: Distance)
  {
    && (forall e :: e in edges ==> edges[e].Keys == {"distance"})
    && (forall k, l :: 0 <= k < l < |names| && names[k] in coords && names[l] in coords && {names[k], names[l]} in edges
          ==> edges[{names[k], names[l]}] == DistanceAttrs(haversine(coords[names[k]], coords[names[l]])))
  }

  /**
   * `build_graph(ports)`: a node per port name holding its coordinate, then an
   * edge for every pair of positions i < j of the name list, weighted by the
   * haversine distance of the coordinates read back from the graph.
   */
  method BuildGraph(ports: seq<Port>, haversine: Distance) returns (g: Graph<string>)
    requires Symmetric(haversine)
    ensures fresh(g)
    ensures g.nodes == CoordNodes(PortCoords(ports))
    ensures g.edges.Keys == MeshEdges(Names(ports))
    ensures EdgeDistances(g.edges, Names(ports), PortCoords(ports), haversine)
    ensures WellFormed(g.Data())
  {
    g := new Graph();
    AddPortNodes(g, ports);
    PortCoordsKeys(ports);
    AddMeshEdges(g, Names(ports), PortCoords(ports), haversine);
  }

  /** The first loop: `for port in ports: graph.add_node(port.name, coord=port.coord)`. */
  method AddPortNodes(g: Graph<string>, ports: seq<Port>)
    requires g.nodes == map[] && g.edges == map[]
    modifies g
    ensures g.nodes == CoordNodes(PortCoords(ports))
    ensures g.edges == map[]
    ensures WellFormed(g.Data())
  {
    for p := 0 to |ports|
      invariant g.nodes == CoordNodes(PortCoords(ports[..p]))
      invariant g.edges == map[]
      invariant WellFormed(g.Data())
    {
      AddPortNode(g, ports, p);
    }
    assert ports[..|ports|] == ports;
  }

  /** The nested loops over `enumerate(names)` and `names[i + 1:]`. */
  method AddMeshEdges(g: Graph<string>, names: seq<string>, ghost coords: map<string, Coord>, haversine: Distance)
    requires Symmetric(haversine)
    requires forall n :: n in names ==> n in coords
    requires g.nodes == CoordNodes(coords) && g.edges == map[]
    requires WellFormed(g.Data())
    modifies g
    ensures g.nodes == CoordNodes(coords)
    ensures g.edges.Keys == MeshEdges(names)
    ensures EdgeDistances(g.edges, names, coords, haversine)
    ensures WellFormed(g.Data())
  {
    MeshBeforeStart(names);
    for i := 0 to |names|
      invariant g.nodes == CoordNodes(coords)
      invariant g.edges.Keys == MeshBefore(names, i, i + 1)
      invariant EdgeDistances(g.edges, names, coords, haversine)
      invariant WellFormed(g.Data())
    {
      for j := i + 1 to |names|
        invariant g.nodes == CoordNodes(coords)
        invariant g.edges.Keys == MeshBefore(names, i, j)
        invariant EdgeDistances(g.edges, names, coords, haversine)
        invariant WellFormed(g.Data())
      {
        AddMeshEdge(g, names, i, j, coords, haversine);
      }
      MeshBeforeRow(names, i);
    }
    MeshBeforeEnd(names);
  }

  /** One step of the first loop: `add_node(port.name, coord=port.coord)`. */
  method AddPortNode(g: Graph<string>, ports: seq<Port>, p: nat)
    requires p < |ports|
    requires g.nodes == CoordNodes(PortCoords(ports[..p]))
    requires WellFormed(g.Data())
    modifies g
    ensures g.nodes == CoordNodes(PortCoords(ports[..p + 1]))
    ensures g.edges == old(g.edges)
    ensures WellFormed(g.Data())
  {
    var port := ports[p];
    ghost var before := PortCoords(ports[..p]);
    g.AddNode(port.name, CoordAttrs(port.coord));
    assert ports[..p + 1][..p] == ports[..p];
    assert PortCoords(ports[..p + 1]) == before[port.name := port.coord];
    if port.name in before {
      CoordNodesAt(before, port.name);
      assert CoordAttrs(before[port.name]) + CoordAttrs(port.coord) == CoordAttrs(port.coord);
    }
    CoordNodesUpdate(before, port.name, port.coord);
  }

  /** One step of the inner loop: `add_edge(a, b, distance=haversine_km(...))`. */
  method AddMeshEdge(g: Graph<string>, names: seq<string>, i: nat, j: nat,
                     ghost coords: map<string, Coord>, haversine: Distance)
    requires i < j < |names|
    requires Symmetric(haversine)
    requires forall n :: n in names ==> n in coords
    requires g.nodes == CoordNodes(coords)
    requires g.edges.Keys == MeshBefore(names, i, j)
    requires EdgeDistances(g.edges, names, coords, haversine)
    requires WellFormed(g.Data())
    modifies g
    ensures g.nodes == CoordNodes(coords)
    ensures g.edges.Keys == MeshBefore(names, i, j + 1)
    ensures EdgeDistances(g.edges, names, coords, haversine)
    ensures WellFormed(g.Data())
  {
    var a, b := names[i], names[j];
    CoordNodesAt(coords, a);
    CoordNodesAt(coords, b);
    var ca, cb := g.nodes[a]["coord"], g.nodes[b]["coord"];
    var d := haversine(Coord(ca.first, ca.second), Coord(cb.first, cb.second));
    assert d == haversine(coords[a], coords[b]);
    ghost var before := g.edges;
    if {a, b} in before {
      DistanceMerge(before[{a, b}], d);
    }
    g.AddEdge(a, b, DistanceAttrs(d));
    MeshBeforeNext(names, i, j);
    EdgeDistancesAdd(before, names, coords, haversine, i, j);
  }

  /** Setting `distance` again replaces the only attribute an edge has. */
  lemma DistanceMerge(attrs: EdgeAttrs, d: real)
    requires attrs.Keys == {"distance"}
    ensures attrs + DistanceAttrs(d) == DistanceAttrs(d)
  {
  }

  /** Adding the edge of pair (i, j) with its own distance keeps every edge's distance right. */
  lemma EdgeDistancesAdd(edges: map<set<string>, EdgeAttrs>, names: seq<string>,
                         coords: map<string, Coord>, haversine: Distance, i: nat, j: nat)
    requires i < j < |names| && names[i] in coords && names[j] in coords
    requires Symmetric(haversine)
    requires EdgeDistances(edges, names, coords, haversine)
    ensures EdgeDistances(edges[{names[i], names[j]} := DistanceAttrs(haversine(coords[names[i]], coords[names[j]]))],
                          names, coords, haversine)
  {
    var a, b := names[i], names[j];
    var after := edges[{a, b} := DistanceAttrs(haversine(coords[a], coords[b]))];
    forall k, l | 0 <= k < l < |names| && names[k] in coords && names[l] in coords && {names[k], names[l]} in after
      ensures after[{names[k], names[l]}] == DistanceAttrs(haversine(coords[names[k]], coords[names[l]]))
    {
      if {names[k], names[l]} == {a, b} {
        PairEq(names[k], names[l], a, b);
      }
    }
  }

  /**
   * Read by its end points, each edge of the built graph carries the haversine
   * distance of the coordinates stored for those two names, in either order.
   */
  lemma EdgeDistanceByEnds(edges: map<set<string>, EdgeAttrs>, names: seq<string>,
                           coords: map<string, Coord>, haversine: Distance, a: string, b: string)
    requires Symmetric(haversine)
    requires forall n :: n in names ==> n in coords
    requires EdgeDistances(edges, names, coords, haversine)
    requires {a, b} in edges && {a, b} in MeshEdges(names)
    ensures a in coords && b in coords
    ensures edges[{a, b}] == DistanceAttrs(haversine(coords[a], coords[b]))
  {
    MeshEdgeEnds(names, {a, b});
    var k, l :| 0 <= k < l < |names| && {a, b} == {names[k], names[l]};
    PairEq(a, b, names[k], names[l]);
  }
}

=== FILE: text.dfy ===
/**
 * The few methods of Python's `str` that the coordinate parser relies on:
 * `strip()`, `split(sep)` and `endswith(suffix)`.
 */
module Text {

  /**
   * Python's `str.isspace()` for one character (Unicode White_Space of the Zs,
   * B and S classes): it takes in the ASCII blank, tab and line breaks, and
   * never a comma, a digit, a sign or a decimal point, so stripping cannot eat
   * into a coordinate field.
   */
  predicate IsSpace(c: char): (b: bool)
    ensures c in " \t\n\r" ==> b
    ensures b ==> c != ',' && c != '.' && c != '-' && c != '+' && !('0' <= c <= '9')
  {
    var n := c as int;
    (0x09 <= n <= 0x0D) || (0x1C <= n <= 0x20) || n == 0x85 || n == 0xA0 || n == 0x1680
    || (0x2000 <= n <= 0x200A) || n == 0x2028 || n == 0x2029 || n == 0x202F || n == 0x205F
    || n == 0x3000
  }

  predicate AllSpace(s: string) {
    forall k :: 0 <= k < |s| ==> IsSpace(s[k])
  }

  /** `s.lstrip()`. */
  function StripStart(s: string): string {
    if s != [] && IsSpace(s[0]) then StripStart(s[1..]) else s
  }

  /** `s.rstrip()`. */
  function StripEnd(s: string): string {
    if s != [] && IsSpace(s[|s| - 1]) then StripEnd(s[..|s| - 1]) else s
  }

  /** `s.strip()`: never longer than the text, and neither starting nor ending with white space. */
  function Strip(s: string): (r: string)
    ensures |r| <= |s|
    ensures r != [] ==> !IsSpace(r[0]) && !IsSpace(r[|r| - 1])
  {
    StripStartShape(s);
    StripEndShape(StripStart(s));
    StripEnd(StripStart(s))
  }

  /** `lstrip` leaves a suffix of the text that does not start with white space, and drops only white space. */
  lemma {:induction false} StripStartShape(s: string)
    ensures var r := StripStart(s);
      && |r| <= |s| && r == s[|s| - |r|..]
      && AllSpace(s[..|s| - |r|])
      && (r != [] ==> !IsSpace(r[0]))
  {
    if s != [] && IsSpace(s[0]) {
      StripStartShape(s[1..]);
      var r := StripStart(s);
      assert s[..|s| - |r|] == [s[0]] + s[1..][..|s| - 1 - |r|];
    }
  }

  /** `rstrip` leaves a prefix of the text that does not end with white space, and drops only white space. */
  lemma {:induction false} StripEndShape(s: string)
    ensures var r := StripEnd(s);
      && |r| <= |s| && r == s[..|r|]
      && AllSpace(s[|r|..])
      && (r != [] ==> !IsSpace(r[|r| - 1]))
  {
    if s != [] && IsSpace(s[|s| - 1]) {
      StripEndShape(s[..|s| - 1]);
      var r := StripEnd(s);
      assert s[|r|..] == s[..|s| - 1][|r|..] + [s[|s| - 1]];
    }
  }

  /**
   * `strip` leaves the middle of the text: white space only was dropped on
   * either side, and what is left neither starts nor ends with white space.
   */
  lemma StripShape(s: string)
    ensures var r := Strip(s);
      && (exists i :: 0 <= i <= |s| - |r| && r == s[i..i + |r|] && AllSpace(s[..i]) && AllSpace(s[i + |r|..]))
      && (r != [] ==> !IsSpace(r[0]) && !IsSpace(r[|r| - 1]))
  {
    StripStartShape(s);
    var m := StripStart(s);
    StripEndShape(m);
    var r := StripEnd(m);
    var i := |s| - |m|;
    assert r == s[i..i + |r|];
    assert s[i + |r|..] == m[|r|..];
    assert 0 <= i <= |s| - |r| && r == s[i..i + |r|] && AllSpace(s[..i]) && AllSpace(s[i + |r|..]);
  }

  /** Leading white space does not change what `lstrip` leaves. */
  lemma {:induction false} StripStartSkipsSpace(w: string, x: string)
    requires AllSpace(w)
    ensures StripStart(w + x) == StripStart(x)
  {
    if w == [] {
      assert w + x == x;
    } else {
      assert (w + x)[1..] == w[1..] + x;
      StripStartSkipsSpace(w[1..], x);
    }
  }

  /** Trailing white space does not change what `rstrip` leaves. */
  lemma {:induction false} StripEndSkipsSpace(x: string, w: string)
    requires AllSpace(w)
    ensures StripEnd(x + w) == StripEnd(x)
  {
    if w == [] {
      assert x + w == x;
    } else {
      assert (x + w)[..|x + w| - 1] == x + w[..|w| - 1];
      StripEndSkipsSpace(x, w[..|w| - 1]);
    }
  }

  /** `lstrip` of a text followed by white space keeps that white space unless the text was all white space. */
  lemma {:induction false} StripStartAppendSpace(a: string, w: string)
    requires AllSpace(w)
    ensures StripStart(a + w) == if StripStart(a) == [] then [] else StripStart(a) + w
  {
    if a == [] {
      assert a + w == w;
      StripStartSkipsSpace(w, []);
      assert w + [] == w;
    } else if IsSpace(a[0]) {
      assert (a + w)[1..] == a[1..] + w;
      StripStartAppendSpace(a[1..], w);
    }
  }

  /** White space around a field is ignored: `strip()` of a padded text equals `strip()` of the text. */
  lemma StripIgnoresPadding(w1: string, a: string, w2: string)
    requires AllSpace(w1) && AllSpace(w2)
    ensures Strip(w1 + a + w2) == Strip(a)
  {
    assert w1 + a + w2 == w1 + (a + w2);
    StripStartSkipsSpace(w1, a + w2);
    StripStartAppendSpace(a, w2);
    if StripStart(a) != [] {
      StripEndSkipsSpace(StripStart(a), w2);
    }
  }

  /** `s.count(c)` for one character. */
  function Occurrences(s: string, c: char): nat {
    if s == [] then 0 else (if s[0] == c then 1 else 0) + Occurrences(s[1..], c)
  }

  /**
   * `s.split(sep)`: the pieces of `s` between occurrences of `sep`. Like
   * Python, the empty string splits into one empty piece, and there is always
   * one piece more than there are separators.
   */
  function Split(s: string, sep: char): (parts: seq<string>)
    ensures |parts| == Occurrences(s, sep) + 1
    ensures forall k :: 0 <= k < |parts| ==> sep !in parts[k]
  {
    if s == [] then [[]]
    else
      var rest := Split(s[1..], sep);
      if s[0] == sep then [[]] + rest else [[s[0]] + rest[0]] + rest[1..]
  }

  /** `sep.join(parts)`. */
  function Join(parts: seq<string>, sep: char): string
    requires |parts| >= 1
  {
    if |parts| == 1 then parts[0] else parts[0] + [sep] + Join(parts[1..], sep)
  }

  /** Splitting loses nothing: joining the pieces with the separator gives back the text. */
  lemma {:induction false} JoinSplit(s: string, sep: char)
    ensures Join(Split(s, sep), sep) == s
  {
    if s != [] {
      JoinSplit(s[1..], sep);
      var rest := Split(s[1..], sep);
      if s[0] != sep {
        if |rest| == 1 {
          assert Join(Split(s, sep), sep) == [s[0]] + rest[0];
        } else {
          assert Split(s, sep)[1..] == rest[1..];
          assert Join(rest, sep) == rest[0] + [sep] + Join(rest[1..], sep);
        }
      }
    }
  }

  /** A text without the separator is one piece. */
  lemma {:induction false} SplitWithoutSeparator(s: string, sep: char)
    requires sep !in s
    ensures Split(s, sep) == [s]
  {
    if s != [] {
      SplitWithoutSeparator(s[1..], sep);
      assert [s[0]] + s[1..] == s;
    }
  }

  /** The first separator ends the first piece. */
  lemma {:induction false} SplitAtFirstSeparator(a: string, sep: char, b: string)
    requires sep !in a
    ensures Split(a + [sep] + b, sep) == [a] + Split(b, sep)
  {
    if a != [] {
      assert (a + [sep] + b)[1..] == a[1..] + [sep] + b;
      SplitAtFirstSeparator(a[1..], sep, b);
      assert [a[0]] + a[1..] == a;
    } else {
      assert (a + [sep] + b)[1..] == b;
    }
  }

  /** Pieces without the separator survive a join followed by a split. */
  lemma {:induction false} SplitJoin(parts: seq<string>, sep: char)
    requires |parts| >= 1
    requires forall k :: 0 <= k < |parts| ==> sep !in parts[k]
    ensures Split(Join(parts, sep), sep) == parts
  {
    if |parts| == 1 {
      SplitWithoutSeparator(parts[0], sep);
    } else {
      SplitJoin(parts[1..], sep);
      SplitAtFirstSeparator(parts[0], sep, Join(parts[1..], sep));
      assert [parts[0]] + parts[1..] == parts;
    }
  }

  /** `s.endswith(suffix)`. */
  predicate EndsWith(s: string, suffix: string) {
    |suffix| <= |s| && s[|s| - |suffix|..] == suffix
  }
}

=== FILE: utils.dfy ===
/**
 * Text input handling of the dashboard: `lat,lon` coordinate parsing, the
 * one-waypoint-per-line parser, the bounding box around a route and the
 * file-name rule used when a route is saved.
 */
module Utils {
  import opened Basics
  import opened Text

  /** Why the text inside the `try` block failed; it becomes the `__cause__` of the ValueError. */
  datatype Cause =
    | NotExactlyOneComma
    | NotANumber(text: string)
    | LatitudeOutOfRange(lat: real)
    | LongitudeOutOfRange(lon: real)

  /** The one exception kind that `parse_coordinates` raises: `Invalid coordinate format: <input>`. */
  datatype CoordinateError = InvalidCoordinateFormat(input: string, cause: Cause)

  predicate InRange(c: Coord) {
    -90.0 <= c.lat <= 90.0 && -180.0 <= c.lon <= 180.0
  }

  /** `[p.strip() for p in parts]`. */
  function StripAll(parts: seq<string>): (r: seq<string>)
    ensures |r| == |parts| && forall k :: 0 <= k < |r| ==> r[k] == Strip(parts[k])
  {
    seq(|parts|, k requires 0 <= k < |parts| => Strip(parts[k]))
  }

  /**
   * The rest of the `try` block once the parts are stripped: demand two
   * parts, convert both with `float()` (latitude first), then range-check
   * latitude and then longitude.
   */
  function ConvertParts(parts: seq<string>, toFloat: string -> Option<real>): (r: Result<Coord, Cause>)
    ensures |parts| != 2 ==> r == Err(NotExactlyOneComma)
    ensures r.Ok? <==> |parts| == 2 && toFloat(parts[0]).Some? && toFloat(parts[1]).Some?
                       && InRange(Coord(toFloat(parts[0]).value, toFloat(parts[1]).value))
    ensures r.Ok? ==> r.value == Coord(toFloat(parts[0]).value, toFloat(parts[1]).value)
    ensures r.Err? && r.error.NotANumber? ==> r.error.text in parts
    ensures r.Err? && r.error.LongitudeOutOfRange? ==> toFloat(parts[0]).Some? && -90.0 <= toFloat(parts[0]).value <= 90.0
  {
    if |parts| != 2 then Err(NotExactlyOneComma)
    else
      match toFloat(parts[0])
      case None => Err(NotANumber(parts[0]))
      case Some(lat) =>
        match toFloat(parts[1])
        case None => Err(NotANumber(parts[1]))
        case Some(lon) =>
          if !(-90.0 <= lat <= 90.0) then Err(LatitudeOutOfRange(lat))
          else if !(-180.0 <= lon <= 180.0) then Err(LongitudeOutOfRange(lon))
          else Ok(Coord(lat, lon))
  }

  /** The body of the `try` block of `parse_coordinates`. */
  function ReadCoordinate(s: string, toFloat: string -> Option<real>): (r: Result<Coord, Cause>)
    ensures Occurrences(s, ',') != 1 ==> r == Err(NotExactlyOneComma)
    ensures r.Ok? ==> InRange(r.value)
    ensures Occurrences(s, ',') == 1 ==>
      var x, y := toFloat(Strip(Split(s, ',')[0])), toFloat(Strip(Split(s, ',')[1]));
      && (r.Ok? <==> x.Some? && y.Some? && InRange(Coord(x.value, y.value)))
      && (r.Ok? ==> r.value == Coord(x.value, y.value))
  {
    ConvertParts(StripAll(Split(s, ',')), toFloat)
  }

  /**
   * `parse_coordinates`: a coordinate comes back only from a text with exactly
   * one comma and lies in range (both bounds inclusive); every failure is the
   * same exception kind and names the input.
   */
  function ParseCoordinates(s: string, toFloat: string -> Option<real>): (r: Result<Coord, CoordinateError>)
    ensures r.Ok? ==> Occurrences(s, ',') == 1 && InRange(r.value)
    ensures Occurrences(s, ',') != 1 ==> r == Err(InvalidCoordinateFormat(s, NotExactlyOneComma))
    ensures r.Err? ==> r.error.input == s
  {
    match ReadCoordinate(s, toFloat)
    case Ok(c) => Ok(c)
    case Err(cause) => Err(InvalidCoordinateFormat(s, cause))
  }

  /**
   * A text made of two comma-free fields parses exactly when both stripped
   * fields convert and the pair is in range, and then to that pair.
   */
  lemma ParseTwoFields(a: string, b: string, toFloat: string -> Option<real>)
    requires ',' !in a && ',' !in b
    ensures var r := ParseCoordinates(a + [','] + b, toFloat);
      var x, y := toFloat(Strip(a)), toFloat(Strip(b));
      && (r.Ok? <==> x.Some? && y.Some? && InRange(Coord(x.value, y.value)))
      && (r.Ok? ==> r.value == Coord(x.value, y.value))
  {
    SplitAtFirstSeparator(a, ',', b);
    SplitWithoutSeparator(b, ',');
    assert Split(a + [','] + b, ',') == [a, b];
    assert ParseCoordinates(a + [','] + b, toFloat) == match ReadCoordinate(a + [','] + b, toFloat)
      case Ok(c) => Ok(c) case Err(cause) => Err(InvalidCoordinateFormat(a + [','] + b, cause));
  }

  /** Two texts whose comma-free fields strip to the same words read alike. */
  lemma SameStrippedFields(x: string, y: string, a: string, b: string, toFloat: string -> Option<real>)
    requires ',' !in x && ',' !in y && ',' !in a && ',' !in b
    requires Strip(x) == Strip(a) && Strip(y) == Strip(b)
    ensures ReadCoordinate(x + [','] + y, toFloat) == ReadCoordinate(a + [','] + b, toFloat)
  {
    SplitAtFirstSeparator(x, ',', y);
    SplitWithoutSeparator(y, ',');
    SplitAtFirstSeparator(a, ',', b);
    SplitWithoutSeparator(b, ',');
    assert Split(x + [','] + y, ',') == [x, y] && Split(a + [','] + b, ',') == [a, b];
    assert StripAll([x, y]) == StripAll([a, b]);
  }

  /** White space around either field changes nothing: `"a , b"` reads like `"a,b"`. */
  lemma PaddingIgnored(w1: string, a: string, w2: string, w3: string, b: string, w4: string,
                       toFloat: string -> Option<real>)
    requires AllSpace(w1) && AllSpace(w2) && AllSpace(w3) && AllSpace(w4)
    requires ',' !in a && ',' !in b
    ensures var padded := ParseCoordinates((w1 + a + w2) + [','] + (w3 + b + w4), toFloat);
      var plain := ParseCoordinates(a + [','] + b, toFloat);
      && padded.Ok? == plain.Ok?
      && (padded.Ok? ==> padded.value == plain.value)
      && (padded.Err? ==> padded.error.cause == plain.error.cause)
  {
    PaddedFieldHasNoComma(w1, a, w2);
    PaddedFieldHasNoComma(w3, b, w4);
    StripIgnoresPadding(w1, a, w2);
    StripIgnoresPadding(w3, b, w4);
    SameStrippedFields(w1 + a + w2, w3 + b + w4, a, b, toFloat);
  }

  lemma PaddedFieldHasNoComma(w1: string, a: string, w2: string)
    requires AllSpace(w1) && AllSpace(w2) && ',' !in a
    ensures ',' !in w1 + a + w2
  {
    var s := w1 + a + w2;
    forall k | 0 <= k < |s| ensures s[k] != ',' {
      if k < |w1| { assert IsSpace(w1[k]); }
      else if k < |w1| + |a| { assert s[k] == a[k - |w1|]; }
      else { assert IsSpace(w2[k - |w1| - |a|]); }
    }
  }

  /**
   * What the loop of `parse_waypoints` has produced after the given lines:
   * blank lines are skipped, every other line is stripped and parsed, and the
   * first failure ends the call.
   */
  function ParseLines(lines: seq<string>, toFloat: string -> Option<real>): (r: Result<seq<Coord>, CoordinateError>)
    ensures r.Ok? ==> |r.value| == |NonBlank(lines)| && forall k :: 0 <= k < |r.value| ==> InRange(r.value[k])
  {
    if lines == [] then Ok([])
    else
      match ParseLines(lines[..|lines| - 1], toFloat)
      case Err(e) => Err(e)
      case Ok(done) =>
        var line := Strip(lines[|lines| - 1]);
        if line == [] then Ok(done)
        else
          match ParseCoordinates(line, toFloat)
          case Err(e) => Err(e)
          case Ok(c) => Ok(done + [c])
  }

  /** The stripped non-blank lines, in order. */
  function NonBlank(lines: seq<string>): (r: seq<string>)
    ensures |r| <= |lines|
    ensures forall k :: 0 <= k < |r| ==> r[k] != []
  {
    if lines == [] then []
    else
      var line := Strip(lines[|lines| - 1]);
      NonBlank(lines[..|lines| - 1]) + (if line == [] then [] else [line])
  }

  /** Once a line has failed, later lines do not matter. */
  lemma {:induction false} ParseLinesFailureSticks(lines: seq<string>, k: nat, toFloat: string -> Option<real>)
    requires k <= |lines|
    requires ParseLines(lines[..k], toFloat).Err?
    ensures ParseLines(lines, toFloat) == ParseLines(lines[..k], toFloat)
  {
    if k < |lines| {
      assert lines[..|lines| - 1][..k] == lines[..k];
      ParseLinesFailureSticks(lines[..|lines| - 1], k, toFloat);
    } else {
      assert lines[..k] == lines;
    }
  }

  /**
   * `r` is what parsing the stripped non-blank lines `nb` one by one gives:
   * it succeeds exactly when every line parses, with one coordinate per line
   * in line order, and otherwise fails with the error of the first bad line.
   */
  ghost predicate ParsedOneByOne(r: Result<seq<Coord>, CoordinateError>, nb: seq<string>, toFloat: string -> Option<real>) {
    && (r.Ok? <==> forall k :: 0 <= k < |nb| ==> ParseCoordinates(nb[k], toFloat).Ok?)
    && (r.Ok? ==> |r.value| == |nb|
                  && forall k :: 0 <= k < |nb| ==> r.value[k] == ParseCoordinates(nb[k], toFloat).value)
    && (r.Err? ==> exists k :: 0 <= k < |nb| && ParseCoordinates(nb[k], toFloat) == Err(r.error)
                     && forall j :: 0 <= j < k ==> ParseCoordinates(nb[j], toFloat).Ok?)
  }

  /** The result of the line loop is the one-by-one parse of the stripped non-blank lines. */
  lemma {:induction false} ParseLinesMeaning(lines: seq<string>, toFloat: string -> Option<real>)
    ensures ParsedOneByOne(ParseLines(lines, toFloat), NonBlank(lines), toFloat)
  {
    if lines == [] {
      assert NonBlank(lines) == [];
    } else {
      var front := lines[..|lines| - 1];
      ParseLinesMeaning(front, toFloat);
      var nb0 := NonBlank(front);
      var line := Strip(lines[|lines| - 1]);
      match ParseLines(front, toFloat)
      case Err(e) =>
        if line != [] {
          assert NonBlank(lines) == nb0 + [line];
          FailureKept(e, nb0, line, toFloat);
        }
      case Ok(done) =>
        if line != [] {
          assert NonBlank(lines) == nb0 + [line];
          match ParseCoordinates(line, toFloat)
          case Err(e) => FirstFailure(done, nb0, line, toFloat);
          case Ok(c) => OneMoreParsed(done, nb0, line, toFloat);
        }
    }
  }

  /** A failure stays the first failure when a line is added. */
  lemma FailureKept(e: CoordinateError, nb: seq<string>, line: string, toFloat: string -> Option<real>)
    requires ParsedOneByOne(Err(e), nb, toFloat)
    ensures ParsedOneByOne(Err(e), nb + [line], toFloat)
  {
    var k :| 0 <= k < |nb| && ParseCoordinates(nb[k], toFloat) == Err(e)
             && forall j :: 0 <= j < k ==> ParseCoordinates(nb[j], toFloat).Ok?;
    assert (nb + [line])[k] == nb[k];
  }

  /** After lines that all parse, a line that fails gives the first failure. */
  lemma FirstFailure(done: seq<Coord>, nb: seq<string>, line: string, toFloat: string -> Option<real>)
    requires ParsedOneByOne(Ok(done), nb, toFloat) && ParseCoordinates(line, toFloat).Err?
    ensures ParsedOneByOne(Err(ParseCoordinates(line, toFloat).error), nb + [line], toFloat)
  {
    assert (nb + [line])[|nb|] == line;
  }

  /** After lines that all parse, a line that parses adds its coordinate at the end. */
  lemma OneMoreParsed(done: seq<Coord>, nb: seq<string>, line: string, toFloat: string -> Option<real>)
    requires ParsedOneByOne(Ok(done), nb, toFloat) && ParseCoordinates(line, toFloat).Ok?
    ensures ParsedOneByOne(Ok(done + [ParseCoordinates(line, toFloat).value]), nb + [line], toFloat)
  {
    var nb1 := nb + [line];
    assert forall k :: 0 <= k < |nb| ==> nb1[k] == nb[k];
    assert nb1[|nb|] == line;
  }

  /** The line loop after one more line, when the lines before it all parsed. */
  lemma ParseLinesNext(lines: seq<string>, k: nat, toFloat: string -> Option<real>)
    requires k < |lines|
    ensures ParseLines(lines[..k], toFloat).Ok? ==>
      var done, line := ParseLines(lines[..k], toFloat).value, Strip(lines[k]);
      ParseLines(lines[..k + 1], toFloat) ==
        if line == [] then Ok(done)
        else if ParseCoordinates(line, toFloat).Err? then Err(ParseCoordinates(line, toFloat).error)
        else Ok(done + [ParseCoordinates(line, toFloat).value])
  {
    assert lines[..k + 1][..k] == lines[..k];
  }

  /**
   * `parse_waypoints`: empty or white-space-only input gives no waypoints;
   * otherwise the stripped text is split into lines and the result is that of
   * the line loop over them.
   */
  method ParseWaypoints(text: string, toFloat: string -> Option<real>) returns (r: Result<seq<Coord>, CoordinateError>)
    ensures Strip(text) == [] ==> r == Ok([])
    ensures r == ParseLines(Split(Strip(text), '\n'), toFloat)
  {
    if text == [] || Strip(text) == [] {
      return Ok([]);
    }
    var lines := Split(Strip(text), '\n');
    var waypoints: seq<Coord> := [];
    for k := 0 to |lines|
      invariant ParseLines(lines[..k], toFloat) == Ok(waypoints)
    {
      ParseLinesNext(lines, k, toFloat);
      var line := Strip(lines[k]);
      if line != [] {
        var c := ParseCoordinates(line, toFloat);
        if c.Err? {
          ParseLinesFailureSticks(lines, k + 1, toFloat);
          return Err(c.error);
        }
        waypoints := waypoints + [c.value];
      }
    }
    assert lines[..|lines|] == lines;
    return Ok(waypoints);
  }

  /** The `north`/`south`/`east`/`west` dictionary of `calculate_bounding_box`. */
  datatype BoundingBox = BoundingBox(north: real, south: real, east: real, west: real)

  predicate Inside(b: BoundingBox, c: Coord) {
    b.south <= c.lat <= b.north && b.west <= c.lon <= b.east
  }

  /** Python's `max` over a non-empty list: an upper bound that occurs in the list. */
  function MaxOf(xs: seq<real>): (m: real)
    requires xs != []
    ensures forall k :: 0 <= k < |xs| ==> xs[k] <= m
    ensures exists k :: 0 <= k < |xs| && xs[k] == m
  {
    if |xs| == 1 then xs[0] else Max(xs[0], MaxOf(xs[1..]))
  }

  /** Python's `min` over a non-empty list: a lower bound that occurs in the list. */
  function MinOf(xs: seq<real>): (m: real)
    requires xs != []
    ensures forall k :: 0 <= k < |xs| ==> m <= xs[k]
    ensures exists k :: 0 <= k < |xs| && xs[k] == m
  {
    if |xs| == 1 then xs[0] else Min(xs[0], MinOf(xs[1..]))
  }

  function Lats(coords: seq<Coord>): (r: seq<real>)
    ensures |r| == |coords| && forall k :: 0 <= k < |r| ==> r[k] == coords[k].lat
  {
    seq(|coords|, k requires 0 <= k < |coords| => coords[k].lat)
  }

  function Lons(coords: seq<Coord>): (r: seq<real>)
    ensures |r| == |coords| && forall k :: 0 <= k < |r| ==> r[k] == coords[k].lon
  {
    seq(|coords|, k requires 0 <= k < |coords| => coords[k].lon)
  }

  /**
   * `calculate_bounding_box`: all four bounds 0 for no points; otherwise each
   * bound is the extreme latitude or longitude of some point, widened by the
   * padding, so that with a non-negative padding every point lies inside.
   */
  function CalculateBoundingBox(coords: seq<Coord>, padding: real := 0.1): (b: BoundingBox)
    ensures coords == [] ==> b == BoundingBox(0.0, 0.0, 0.0, 0.0)
    ensures coords != [] ==>
      && (forall k :: 0 <= k < |coords| ==> coords[k].lat <= b.north - padding && b.south + padding <= coords[k].lat)
      && (forall k :: 0 <= k < |coords| ==> coords[k].lon <= b.east - padding && b.west + padding <= coords[k].lon)
      && (exists k :: 0 <= k < |coords| && coords[k].lat == b.north - padding)
      && (exists k :: 0 <= k < |coords| && coords[k].lat == b.south + padding)
      && (exists k :: 0 <= k < |coords| && coords[k].lon == b.east - padding)
      && (exists k :: 0 <= k < |coords| && coords[k].lon == b.west + padding)
    ensures padding >= 0.0 ==> forall k :: 0 <= k < |coords| ==> Inside(b, coords[k])
  {
    if coords == [] then BoundingBox(0.0, 0.0, 0.0, 0.0)
    else
      var lats, lons := Lats(coords), Lons(coords);
      BoundingBox(MaxOf(lats) + padding, MinOf(lats) - padding, MaxOf(lons) + padding, MinOf(lons) - padding)
  }

  /**
   * The file-name rule of `save_route_to_file`: a missing or empty name
   * becomes `route_<timestamp>.json`, and `.json` is appended to a name that
   * does not already end with it.
   */
  function RouteFileName(filename: Option<string>, timestamp: string): (r: string)
    ensures EndsWith(r, ".json")
    ensures filename.Some? && filename.value != [] && EndsWith(filename.value, ".json") ==> r == filename.value
    ensures filename.Some? && filename.value != [] && !EndsWith(filename.value, ".json") ==> r == filename.value + ".json"
    ensures filename.None? || filename.value == [] ==> r == "route_" + timestamp + ".json"
  {
    var name := if filename.None? || filename.value == [] then "route_" + timestamp + ".json" else filename.value;
    if !EndsWith(name, ".json") then name + ".json" else name
  }

  /** Normalising an already normalised name changes nothing. */
  lemma RouteFileNameIdempotent(filename: Option<string>, timestamp: string, later: string)
    ensures RouteFileName(Some(RouteFileName(filename, timestamp)), later) == RouteFileName(filename, timestamp)
  {
  }
}

=== FILE: weather.dfy ===
/**
 * `weather/simulator.py`: the deterministic rules of the `WeatherSimulator`,
 * namely the climate region of a latitude, the per-region pattern table and
 * the human-readable conditions label. The random draws that feed them are
 * not part of this model.
 */
module Weather {

  /** Python's `abs` on a float. */
  function Abs(x: real): real {
    if x < 0.0 then -x else x
  }

  /** A `(low, high)` range of a pattern. */
  datatype Range = Range(low: real, high: real)

  /** One region's entry of `weather_patterns`. */
  datatype Pattern = Pattern(temp: Range, pressure: Range, humidity: Range, windSpeed: Range,
                             precipitationProb: real, stormProb: real)

  /** `self.weather_patterns`. */
  const WeatherPatterns: map<string, Pattern> := map[
    "tropical" := Pattern(Range(25.0, 35.0), Range(1000.0, 1015.0), Range(70.0, 95.0), Range(5.0, 30.0), 0.6, 0.1),
    "temperate" := Pattern(Range(5.0, 25.0), Range(990.0, 1030.0), Range(50.0, 85.0), Range(2.0, 20.0), 0.4, 0.05),
    "polar" := Pattern(Range(-30.0, 5.0), Range(980.0, 1020.0), Range(30.0, 70.0), Range(10.0, 40.0), 0.3, 0.15)
  ]

  predicate ProperRange(r: Range) {
    r.low < r.high
  }

  predicate Probability(p: real) {
    0.0 <= p <= 1.0
  }

  /** Every range of a pattern runs from a smaller to a larger value, and both probabilities lie in [0, 1]. */
  predicate ProperPattern(p: Pattern) {
    && ProperRange(p.temp) && ProperRange(p.pressure) && ProperRange(p.humidity) && ProperRange(p.windSpeed)
    && Probability(p.precipitationProb) && Probability(p.stormProb)
  }

  /** The table has exactly the three regions, and each entry is a proper pattern. */
  lemma PatternsProper()
    ensures WeatherPatterns.Keys == {"tropical", "temperate", "polar"}
    ensures forall region :: region in WeatherPatterns ==> ProperPattern(WeatherPatterns[region])
  {
    forall region | region in WeatherPatterns ensures ProperPattern(WeatherPatterns[region]) {
      assert region == "tropical" || region == "temperate" || region == "polar";
    }
  }

  /**
   * `_get_region_for_coords(lat, lon)`: tropical below 23.5 degrees of
   * latitude either side of the equator, temperate below 66.5, polar beyond;
   * a latitude on a boundary belongs to the band further from the equator.
   */
  function RegionForCoords(lat: real, lon: real): (region: string)
    ensures region in WeatherPatterns
    ensures region == "tropical" <==> Abs(lat) < 23.5
    ensures region == "temperate" <==> 23.5 <= Abs(lat) < 66.5
    ensures region == "polar" <==> 66.5 <= Abs(lat)
  {
    if Abs(lat) < 23.5 then "tropical"
    else if Abs(lat) < 66.5 then "temperate"
    else "polar"
  }

  /** How far a region lies from the equator: 0, 1 or 2. */
  function Band(region: string): nat {
    if region == "tropical" then 0 else if region == "temperate" then 1 else 2
  }

  /** The region ignores longitude and the hemisphere: lat and -lat at any two longitudes share a region. */
  lemma RegionIgnoresHemisphere(lat: real, lon1: real, lon2: real)
    ensures RegionForCoords(lat, lon1) == RegionForCoords(-lat, lon2)
  {
    assert Abs(-lat) == Abs(lat);
  }

  /** Moving away from the equator never moves a point to a band nearer to it. */
  lemma RegionMonotone(lat1: real, lat2: real, lon1: real, lon2: real)
    requires Abs(lat1) <= Abs(lat2)
    ensures Band(RegionForCoords(lat1, lon1)) <= Band(RegionForCoords(lat2, lon2))
  {
    var r1, r2 := RegionForCoords(lat1, lon1), RegionForCoords(lat2, lon2);
    if r1 == "temperate" {
      assert r2 != "tropical";
    } else if r1 == "polar" {
      assert r2 == "polar";
    }
  }

  /** The six labels `_get_conditions` may return. */
  const Labels: set<string> := {"Stormy", "Heavy Rain with Strong Winds", "Rainy", "Windy", "Breezy", "Clear"}

  /**
   * `_get_conditions(is_raining, is_storm, wind_speed)`: a storm wins over
   * everything else; rain is heavy with strong winds above 15 m/s; dry
   * weather is windy above 10 m/s, breezy above 5 m/s and clear otherwise.
   */
  function Conditions(isRaining: bool, isStorm: bool, windSpeed: real): (cond: string)
    ensures cond in Labels
    ensures cond == "Stormy" <==> isStorm
    ensures cond == "Heavy Rain with Strong Winds" <==> !isStorm && isRaining && windSpeed > 15.0
    ensures cond == "Rainy" <==> !isStorm && isRaining && windSpeed <= 15.0
    ensures cond == "Windy" <==> !isStorm && !isRaining && windSpeed > 10.0
    ensures cond == "Breezy" <==> !isStorm && !isRaining && 5.0 < windSpeed <= 10.0
    ensures cond == "Clear" <==> !isStorm && !isRaining && windSpeed <= 5.0
  {
    if isStorm then "Stormy"
    else if isRaining then
      if windSpeed > 15.0 then "Heavy Rain with Strong Winds" else "Rainy"
    else if windSpeed > 10.0 then "Windy"
    else if windSpeed > 5.0 then "Breezy"
    else "Clear"
  }

  /** How windy a dry label says it is: Clear 0, Breezy 1, Windy 2. */
  function DryStrength(cond: string): nat {
    if cond == "Windy" then 2 else if cond == "Breezy" then 1 else 0
  }

  /** The label gives back the flags it was computed from: storm, and rain when there is no storm. */
  lemma ConditionsRecoverFlags(isRaining: bool, isStorm: bool, windSpeed: real)
    ensures var cond := Conditions(isRaining, isStorm, windSpeed);
      && (isStorm <==> cond == "Stormy")
      && (!isStorm ==> (isRaining <==> cond in {"Heavy Rain with Strong Winds", "Rainy"}))
  {
    var cond := Conditions(isRaining, isStorm, windSpeed);
    if !isStorm && !isRaining {
      assert cond in {"Windy", "Breezy", "Clear"};
    }
  }

  /** In dry weather a stronger wind never gives a calmer label. */
  lemma DryConditionsMonotone(w1: real, w2: real)
    requires w1 <= w2
    ensures DryStrength(Conditions(false, false, w1)) <= DryStrength(Conditions(false, false, w2))
  {
    var l1, l2 := Conditions(false, false, w1), Conditions(false, false, w2);
    if l1 == "Windy" {
      assert l2 == "Windy";
    } else if l1 == "Breezy" {
      assert l2 != "Clear";
    }
  }
}
